=== FILE: README.md ===
# Coal drill-hole data: a Dafny model of the record logic

This project models the part of the Illinois coal drill-hole tooling that
turns CSV rows and shapefile records into plain values. The plotting around
that part is not modelled. The modelled scripts are:

- `visualize_coal_data.py`: load drill holes for one seam (Herrin,
  Springfield, Danville, Colchester or Seelyville), compute seam depth from
  surface elevation and seam top, and flag outliers. The flags, in order,
  are coordinates outside the study area, thickness outside [0, 50] ft, and
  depth outside [0, 2500] ft (checked only when the hole has no
  thickness). It also counts the statistics it prints, filters the holes a
  plot wants, paints depth bands (shallow < 500 ft, optimal 500–1000 ft,
  deep > 1000 ft), and splits multi-part county polygons.
- `visualize_3d.py`: project holes onto a straight transect. A hole is kept
  when it lies within the buffer and within the segment, and its distance
  along the transect is in miles, at 69 miles per degree. The script builds
  the cross-section (surface profile, seam bands, elevation range), the
  per-seam marker layer, and one drill-hole column per rounded location.
- `summarize_coal_data.py`: `find_column`, `parse_float`, the per-seam and
  per-county accumulation of depths and thicknesses with min/max/mean, the
  CRAWFORD breakdown, and the left join of the major and minor files on
  `IDS`.
- `filter_study_area.py`: the keep rule of `filter_csv`. With a county
  column, a row is kept when its county, upper-cased and stripped, is a
  study county. Without one, a row is kept when its coordinates fall in the
  box. The script also counts kept rows per county.

Modules follow the scripts:

- `DrillHoles`, `CountyShapes`: the loader and map script.
- `Transect`, `CrossSection`, `Scene`: the 3D script.
- `SeamSummary`, `Combine`: the summary script.
- `StudyArea`: the filter script.
- `Tabular`, `Text`, `Fields`: helpers shared by the scripts.
- `Seqs`, `Dicts`, `Sorting`, `Numbers`, `Wrappers`: general-purpose
  support.

Python dicts are association lists: a lookup finds the first entry with the
key, and an update replaces that entry in place or appends a new one. This
keeps the dict's insertion order, which decides output order. `sorted` is a
stable insertion sort over a strict weak order. A run that would raise an
uncaught exception (`KeyError`, `IndexError`) returns `None`.

## Model

| member | source | states |
|---|---|---|
| Fields.ParseFloat | visualize_coal_data.py:42-49 | no cell or a blank cell gives None; any other cell gives exactly what `float()` gives (None where it raises) |
| DrillHoles.DepthOf | visualize_coal_data.py:84-87 | depth exists exactly when both surface elevation and seam top exist, and then top + depth = surface elevation |
| DrillHoles.Classify | visualize_coal_data.py:100-115 | a coordinate outlier exactly when outside the study box; not an outlier exactly when in the box with thickness in [0, 50] when present, and with depth in [0, 2500] when only depth is present; a thickness outlier is exactly an in-box hole with thickness outside [0, 50]; a depth outlier is exactly an in-box hole with no thickness and depth outside [0, 2500]; each flag carries the offending value |
| DrillHoles.LoadRow | visualize_coal_data.py:71-78 | a row gives a hole exactly when both LONGITUDE and LATITUDE parse |
| DrillHoles.LoadRowFields | visualize_coal_data.py:71-115 | a loaded hole's coordinates, thickness, depth and outlier verdict are the ones its row's cells give; a missing SURFELV becomes 0 |
| DrillHoles.LoadedWellFormed | visualize_coal_data.py:89-123 | every loaded hole's outlier flag agrees with the outlier check applied to its own coordinates, thickness and depth |
| DrillHoles.CleanHoleInRange | visualize_coal_data.py:100-115 | a hole that is not an outlier lies in the study box, has thickness in [0, 50] when present, and has depth in [0, 2500] when thickness is absent |
| DrillHoles.FlaggedCountSplits | visualize_coal_data.py:100-115 | the three outlier counts add up to the number of outliers: each outlier has exactly one reason |
| DrillHoles.TallyCounts | visualize_coal_data.py:117-121 | each running counter equals the number of holes with its property |
| DrillHoles.Loaded | visualize_coal_data.py:66-123 | one hole for each row whose LONGITUDE and LATITUDE parse, and none for any other row |
| DrillHoles.LoadDrillHoles | visualize_coal_data.py:52-125 | the holes are the rows with coordinates, in row order; every statistic counts exactly the holes with its property, and the three outlier counts add up to the outliers |
| DrillHoles.Valid | visualize_coal_data.py:128-140 | the filtered list is never longer than the input |
| DrillHoles.ValidIsSubseq | visualize_coal_data.py:128-140 | the filtered holes keep their input order |
| DrillHoles.ValidMultiplicity | visualize_coal_data.py:128-140 | each hole occurs as often as in the input when it meets the enabled requirements, and not at all otherwise |
| DrillHoles.ValidAllOff | visualize_coal_data.py:128-140 | with no requirement enabled, the input comes back unchanged |
| DrillHoles.FilterValid | visualize_coal_data.py:128-140 | the loop keeps exactly the holes meeting the enabled requirements, in order, with multiplicities preserved |
| DrillHoles.DepthColor | visualize_coal_data.py:375-384 | gray iff no depth; blue iff depth < 500; green iff 500 ≤ depth ≤ 1000; orange iff depth > 1000 |
| DrillHoles.BandCountsAddUp | visualize_coal_data.py:271-273 | for holes that all have a depth, the shallow, optimal and deep counts add up to the number of holes |
| DrillHoles.DepthBandsCount | visualize_coal_data.py:258-273 | the shallow, optimal and deep lists together are exactly as long as the valid list |
| DrillHoles.DepthBandsColors | visualize_coal_data.py:258-273 | valid means in the input, with a depth, and not an outlier; the three bands are exactly the valid holes painted blue, green and orange |
| CountyShapes.Slice | visualize_coal_data.py:167 | Python slicing: the ordinary slice for in-range bounds, empty when the start is not before the end |
| CountyShapes.Pieces | visualize_coal_data.py:166-168 | one piece per consecutive pair of bounds; piece i is the slice between bounds i and i+1 |
| CountyShapes.SplitParts | visualize_coal_data.py:160-168 | one polygon per part; each polygon runs from its part offset to the next offset, and the last one to the end of the points |
| CountyShapes.SlicesTelescope | visualize_coal_data.py:160-168 | with non-decreasing clamped bounds, the pieces concatenate to the slice from the first bound to the last |
| CountyShapes.PartsCoverPoints | visualize_coal_data.py:160-168 | with offsets starting at 0 and non-decreasing, the polygons concatenate back to the shape's full point list |
| CountyShapes.LoadCounties | visualize_coal_data.py:150-175 | every county kept is in the study set, upper-cased, unless the set is empty; every selected record is kept, with its name and its parts split into polygons; an empty set keeps every record |
| CountyShapes.LoadCountiesInOrder | visualize_coal_data.py:156-173 | the counties are exactly the selected records, one each, in record order, each with its polygons split at the part offsets |
| Text.Lower | summarize_coal_data.py:20 | the same length, each character lower-cased |
| Text.Upper | filter_study_area.py:51 | the same length, each character upper-cased |
| Text.StripLeft | filter_study_area.py:51 | a suffix of the input that starts with a non-space; everything removed is whitespace |
| Text.StripRight | filter_study_area.py:51 | a prefix of the input that ends with a non-space; everything removed is whitespace |
| Text.StripEmptyIffAllSpace | visualize_coal_data.py:44 | `strip()` gives the empty string exactly for all-whitespace text, the blank test `parse_float` performs |
| Text.ContainsFrom | summarize_coal_data.py:22 | true iff the pattern occurs at some position at or after i |
| Text.Contains | summarize_coal_data.py:22 | Python's `in` on strings: true iff the pattern occurs at some position |
| Text.ContainsPrefix | filter_study_area.py:32-33 | text that contains a word contains every prefix of it |
| Tabular.MatchesAny | summarize_coal_data.py:20-23 | true iff some pattern is a substring of the lower-cased header |
| Tabular.MatchesWordOrAbbreviation | filter_study_area.py:32-33 | a header matches a word or its prefix exactly when it contains the prefix |
| Tabular.FindColumnFrom | summarize_coal_data.py:17-24 | the first matching index at or after i; None iff no header from i on matches |
| Tabular.FindColumn | summarize_coal_data.py:17-24 | the smallest matching index, with no match before it; None iff no header matches |
| Tabular.FindColumnPatternOrder | summarize_coal_data.py:21-23 | two pattern lists with the same members find the same column |
| Tabular.Cell | filter_study_area.py:59-60 | `row[idx]` of a csv.reader row; None exactly when the index is out of range |
| Numbers.MinOf | summarize_coal_data.py:75 | `min`: a member of the list, at most every member |
| Numbers.MaxOf | summarize_coal_data.py:75 | `max`: a member of the list, at least every member |
| Numbers.LowerTo | visualize_3d.py:395-397 | the running minimum: at most the start value and every listed value, and equal to one of them |
| Numbers.MeanBetween | summarize_coal_data.py:76 | the mean of a non-empty list lies between its minimum and its maximum |
| Numbers.SumBounds | summarize_coal_data.py:76 | n times the minimum ≤ sum ≤ n times the maximum |
| Sorting.Sort | visualize_3d.py:311 | `sorted` returns as many elements as it is given |
| Sorting.InsertPermutes | visualize_3d.py:311 | insertion adds exactly the inserted element |
| Sorting.InsertSorted | visualize_3d.py:311 | inserting into a sorted list keeps it sorted |
| Sorting.InsertStable | visualize_3d.py:311 | insertion keeps the relative order of equal-key elements and puts the new one after them |
| Sorting.SortSorted | visualize_3d.py:311 | under a strict weak order, `sorted` yields an ordered list |
| Sorting.SortPermutes | visualize_3d.py:342 | `sorted` yields a permutation of its input |
| Sorting.SortStable | visualize_3d.py:342 | `sorted` is stable: elements with equal keys keep their input order |
| Sorting.SortMembers | visualize_3d.py:403 | `sorted` neither adds nor drops members |
| Transect.Candidates | visualize_3d.py:285-309 | exactly the non-outlier holes that pass the inclusion test, each with its computed distance and offset |
| Transect.CandidatesInOrder | visualize_3d.py:285-309 | the unsorted list holds the passing holes in input order, each projected once |
| Transect.CandidatesMultiplicity | visualize_3d.py:285-309 | a passing hole's projection occurs as often as the hole does; a failing hole's never occurs |
| Transect.SortedByDistance | visualize_3d.py:311 | sorted by the distance key means distances never decrease |
| Transect.KeptBounds | visualize_3d.py:301-309 | a kept hole's distance lies in [0, 69 × length] and its offset in [0, buffer] |
| Transect.ProjectToTransect | visualize_3d.py:255-311 | a zero-length transect gives nothing; otherwise the non-outlier holes inside the segment and buffer, no others, ordered by distance, a stable permutation of the unsorted list |
| Transect.Abs | visualize_3d.py:298 | `abs`: non-negative and equal to the value or its negation |
| Transect.AlongTimesLength | visualize_3d.py:283-295 | the distance along, times the length, is the dot product with the transect vector |
| Transect.PerpTimesLength | visualize_3d.py:283-298 | the offset, times the length, is the magnitude of the cross product with the transect vector |
| Transect.AlongWithinSegment | visualize_3d.py:301 | `0 <= along <= length` iff `0 <= dot <= squared length`: the segment test needs no division |
| Transect.PerpWithinBuffer | visualize_3d.py:298-301 | the buffer test equals comparing the cross product's magnitude with buffer × length |
| Transect.CrossWithinBufferSquared | visualize_3d.py:298-301 | that comparison equals comparing squares against buffer² × squared length |
| Transect.PerpWithinBufferSquared | visualize_3d.py:298-301 | the buffer test is decided by squares, without the square root |
| Transect.KeepsWithoutSqrt | visualize_3d.py:271-301 | the inclusion test holds iff dot and cross product satisfy two polynomial inequalities, independent of how the length was computed |
| Transect.EndpointsProject | visualize_3d.py:294-308 | a hole at the start point projects at distance 0, and one at the end point at 69 × length, both with offset 0 |
| Transect.StartProjects | visualize_3d.py:294-298 | a hole at the start point lies at distance 0 along the transect, with offset 0 |
| Transect.EndProjects | visualize_3d.py:294-298 | a hole at the end point lies at the full length along the transect, with offset 0 |
| Transect.SquareMonotone | visualize_3d.py:298-301 | for non-negative reals, comparing values equals comparing squares |
| CrossSection.ProjectAll | visualize_3d.py:325-329 | one entry per seam, in order, each the seam's holes projected onto the transect |
| CrossSection.PointsOf | visualize_3d.py:333-335 | one surface point per projected hole, in order |
| CrossSection.SurfacePoints | visualize_3d.py:331-335 | every projected hole of every seam contributes its surface point; empty exactly when no seam projected any hole |
| CrossSection.EntryOf | visualize_3d.py:384-393 | an entry keeps the projected distance; its top lies the depth below the surface; its bottom lies the thickness below the top, a missing thickness counting as 0 |
| CrossSection.Entries | visualize_3d.py:381-393 | one band entry per projected hole with a depth, each one present |
| CrossSection.EntriesFromHoles | visualize_3d.py:381-393 | every band entry comes from a projected hole with a depth |
| CrossSection.MakeBand | visualize_3d.py:403-412 | the four columns line up with the sorted entries; the polygon is the tops forward and the bottoms backward |
| CrossSection.MakeBandPolygon | visualize_3d.py:410-412 | polygon position i is entry i's top, and position 2n-1-i is entry i's bottom, at the same distance |
| CrossSection.SeamBand | visualize_3d.py:364-412 | a seam has a band exactly when it was projected and has an entry with a depth; the band is built from its entries in lexicographic order |
| CrossSection.Bands | visualize_3d.py:363-370 | every band belongs to a listed seam and is that seam's band; every listed seam with a band appears |
| CrossSection.BandsInOrder | visualize_3d.py:363-370 | one band per seam that yields one, in the order of the seam list: danville, herrin, springfield, colchester, seelyville for the cross-section |
| CrossSection.AllBottoms | visualize_3d.py:395-397 | exactly the bottoms of all bands |
| CrossSection.Elevations | visualize_3d.py:345-346 | the surface elevations, in profile order |
| CrossSection.Assemble | visualize_3d.py:331-412 | None exactly when no hole was projected; otherwise the profile sorted by distance and the bands in the fixed seam order |
| CrossSection.CreateCrossSection | visualize_3d.py:314-361 | None exactly when no hole of any seam projects onto the transect |
| CrossSection.CrossSectionSurface | visualize_3d.py:341-346 | for any projected input, the profile's distances never decrease, and it is a stable permutation of the projected surface points |
| CrossSection.ProjectedHoleOnSurface | visualize_3d.py:331-393 | every hole that projects appears on the profile, and in its seam's band entries when it has a depth |
| CrossSection.ElevationExtremes | visualize_3d.py:359-397 | the range contains every surface elevation and every band bottom; the maximum is attained on the surface and the minimum on the surface or at a bottom |
| CrossSection.CrossSectionExtremes | visualize_3d.py:359-397 | for any projected input, the range contains all plotted elevations, and both ends are attained |
| CrossSection.ProjectedIsClean | visualize_3d.py:286-288 | a hole on the cross-section is never an outlier |
| CrossSection.CleanEntry | visualize_3d.py:386-388 | a clean hole's band bottom is at or below its top, apart by its thickness of at most 50 |
| CrossSection.BandBottomBelowTop | visualize_3d.py:386-388 | for loaded holes, every band entry has its bottom at or below its top, separated by at most 50 ft |
| CrossSection.BandSorted | visualize_3d.py:402-407 | a band's samples are a permutation of its entries, lexicographically ordered, so distances never decrease |
| Scene.MarkerSize | visualize_3d.py:65-68 | always within [50, 300]; 100 without a positive thickness; 50 per foot of thickness between 1 and 6 ft, clamped to 50 and 300 outside |
| Scene.CreateSeamPoints | visualize_3d.py:48-77 | one marker per non-outlier hole with a depth, in order, each built from its hole; every size within [50, 300] |
| Scene.Tag | visualize_3d.py:100-101 | each hole of the seam appears paired with the seam, and nothing else |
| Scene.Flatten | visualize_3d.py:100-101 | every (seam, hole) pair of the nested loop appears, and only those |
| Scene.Members | visualize_3d.py:100-107 | the grouped holes for a key are non-outlier holes at that rounded location |
| Scene.AbsorbFirst | visualize_3d.py:107-126 | the first hole at a location sets the entry's coordinates and surface elevation and starts its seam list |
| Scene.AbsorbNext | visualize_3d.py:116-126 | each later hole with a depth lowers the minimum elevation to its seam bottom when that is lower, and appends its seam, keeping the first hole's coordinates |
| Scene.AddHole | visualize_3d.py:101-126 | an outlier changes nothing; otherwise only the hole's location changes: its entry, fresh at the hole when the location is new, keeps its coordinates and surface, lowers `min_elev` to the seam bottom when that is lower, and gains the seam when the hole has a depth |
| Scene.Group | visualize_3d.py:98-126 | no more entries than (seam, hole) pairs, and every entry's key is the rounded location of a non-outlier hole |
| Scene.GroupUnique | visualize_3d.py:98-126 | the grouping has one entry per location key |
| Scene.GroupLookup | visualize_3d.py:98-126 | a key has an entry iff some non-outlier hole rounds to it; the entry summarises exactly those holes, first hole first |
| Scene.EntryFromHole | visualize_3d.py:98-126 | every entry stands at the coordinates of a non-outlier hole, with that hole's surface elevation |
| Scene.SeamNames | visualize_3d.py:136 | the seam names of the column's records, in order |
| Scene.Columns | visualize_3d.py:128-144 | exactly the locations whose exaggerated height is at least 10, each column spanning from its base to the exaggerated surface |
| Scene.DrillholeColumns | visualize_3d.py:93-144 | every column is at least 10 high, runs from the exaggerated `min_elev` up to the exaggerated surface, and stands at a non-outlier hole of some seam, with that hole's surface elevation |
| Scene.ColumnDrawn | visualize_3d.py:132-134 | a location gets a column iff its exaggerated height is at least 10 |
| Scene.ColumnAtKey | visualize_3d.py:93-144 | a location's column starts at or below its surface and every seam bottom there, and is drawn iff tall enough |
| SeamSummary.AnyShortIff | summarize_coal_data.py:61-64 | the accumulation fails iff some row is too short for a located column |
| SeamSummary.Values | summarize_coal_data.py:64-71 | at most one parsed value per row |
| SeamSummary.Accumulate | summarize_coal_data.py:61-71 | None iff some row is too short; otherwise the depth and thickness lists are the values that parse, in row order |
| SeamSummary.AddDepthPartitioned | summarize_coal_data.py:66-68 | adding a depth keeps the county entries unique and their depth counts summing to the total |
| SeamSummary.AddThickPartitioned | summarize_coal_data.py:69-71 | adding a thickness keeps the county entries unique and their thickness counts summing to the total |
| SeamSummary.RecordPartition | summarize_coal_data.py:62-71 | one row keeps the per-county lists a partition of the overall lists |
| SeamSummary.AccumulatePartition | summarize_coal_data.py:59-71 | the per-county lists partition the overall lists: unique counties, counts adding up |
| SeamSummary.RecordEntry | summarize_coal_data.py:62-71 | a row changes only its own county's entry, appending what it parsed; an entry appears once a value arrives |
| SeamSummary.AccumulateByCounty | summarize_coal_data.py:59-84 | each county's lists are the parsed values of that county's rows, in order; it has an entry iff one of its rows gave a value |
| SeamSummary.Describe | summarize_coal_data.py:73-81 | None iff the list is empty; the minimum and maximum are members bounding every value, and the mean lies between them |
| SeamSummary.ReportOfSeam | summarize_coal_data.py:73-90 | the counts and ranges describe all parsed values; the CRAWFORD part exists iff a CRAWFORD row gave a value, and then describes those rows |
| SeamSummary.Summarize | summarize_coal_data.py:54-90 | one report per seam, in order; None iff some seam's accumulation fails |
| Combine.MinorIndex | summarize_coal_data.py:173 | the index fails iff some minor row has no IDS |
| Combine.LastWith | summarize_coal_data.py:173 | the last minor row with this IDS; None iff no minor row has it |
| Combine.MinorIndexLastWins | summarize_coal_data.py:173 | with duplicate IDS the last minor row wins, and the index has one entry per IDS |
| Combine.CellsOf | summarize_coal_data.py:198-207 | one cell per requested key |
| Combine.Partner | summarize_coal_data.py:188 | with no minor row for the IDS, the partner is the empty row |
| Combine.CombineRow | summarize_coal_data.py:185-209 | None exactly when the major row lacks a column read with `row[key]`; otherwise one cell per output column |
| Combine.CombineRowIds | summarize_coal_data.py:187-197 | the identifying columns are copied verbatim from the major row |
| Combine.CombineRowSeams | summarize_coal_data.py:198-203 | the major seam columns come from the major row, empty where absent |
| Combine.CombineRowMinor | summarize_coal_data.py:204-207 | the minor seam columns come from the last minor row with the same IDS, or are empty |
| Combine.CombineRowJoined | summarize_coal_data.py:185-209 | one output row satisfies the whole join promise |
| Combine.JoinAll | summarize_coal_data.py:185-209 | None iff some major row lacks a copied column; otherwise one row per major row, in order, each the join with its indexed partner |
| Combine.CreateCombined | summarize_coal_data.py:156-215 | None iff a minor row lacks IDS or a major row lacks a copied column; otherwise one row per major row, in order, each a left join with the last matching minor row |
| StudyArea.LocateColumns | filter_study_area.py:31-33 | each column is the first header whose lower-cased text contains "county", "lat" or "lon", and None exactly when none does; the longer "latitude" and "longitude" patterns change nothing |
| StudyArea.Coordinate | filter_study_area.py:59-60 | `float(row[idx])` without the blank-cell shortcut of `parse_float`: an out-of-range index gives no coordinate, any other cell is whatever `float()` makes of it |
| StudyArea.ByCounty | filter_study_area.py:50-54 | kept iff the name is a study county, counted under that name; never raises |
| StudyArea.AnyShortIff | filter_study_area.py:51 | the filter fails iff some row is too short for the county column |
| StudyArea.Decide | filter_study_area.py:47-64 | raises iff the row is too short for the county column; with a county column the county test decides; otherwise kept iff both coordinates parse and fall in the box |
| StudyArea.PrefixStep | filter_study_area.py:45-67 | reading one more row extends the kept rows by that row exactly when it is kept |
| StudyArea.ShortPrefix | filter_study_area.py:51 | a short row among the rows read is a short row of the file |
| StudyArea.KeepRow | filter_study_area.py:50-67 | one row is appended iff kept; the counts grow by one iff it was kept by county, and the one is added to the row's own upper-cased, stripped county and no other |
| StudyArea.Advance | filter_study_area.py:45-67 | reading one more row keeps the kept rows equal to the keep rule applied to the rows read so far, the counts adding up to them, each county's count equal to the kept rows naming it, and the counts empty without a county column |
| StudyArea.CountStep | filter_study_area.py:52-54 | adding one to the row's own county keeps each county's count equal to the number of kept rows naming it |
| StudyArea.FilterRows | filter_study_area.py:40-83 | None iff some row is too short; otherwise the kept rows are exactly those the rule accepts, in order; the output is the header then them; county counts add up to the kept rows, each county's count is the number of kept rows naming it, and the counts stay empty without a county column |
| StudyArea.FilterCsv | filter_study_area.py:24-83 | with the columns located by `find_column`: None iff some row is too short for the county column; otherwise the kept rows are those the rule accepts, in order, the output is the header then them, and the county counts add up to the kept rows, with each county's count the number of kept rows naming it (empty without a county column) |
| StudyArea.BumpCounts | filter_study_area.py:54 | counting one more study county keeps one entry per county and adds one to the total |
| StudyArea.KeptIsSubsequence | filter_study_area.py:66-67 | the kept rows keep their input order and each passes the keep rule |
| Dicts.Lookup | summarize_coal_data.py:173 | None iff no entry has the key; otherwise the value of an entry with that key |
| Dicts.Put | summarize_coal_data.py:173 | afterwards the key maps to the new value, every other key is unchanged, and the size grows only for a new key |
| Dicts.PutKeys | visualize_3d.py:107-108 | updating keeps the key order, and a new key goes last |
| Dicts.LookupUnique | visualize_3d.py:107-126 | with one entry per key, looking up a stored entry's key gives that entry's value |
| Dicts.PutUnique | visualize_3d.py:98-108 | updating keeps keys unique |
| Dicts.PutSumBy | filter_study_area.py:54 | the sum of a measure over the entries changes by exactly new minus old |
| Dicts.PutKeysWithin | filter_study_area.py:54 | keys stay within a set that contains the new key |
| Seqs.FilterIsSubseq | visualize_coal_data.py:128-140 | a comprehension with a condition yields a subsequence |
| Seqs.FilterMultiplicity | visualize_coal_data.py:128-140 | a comprehension keeps each element's multiplicity when it passes, and drops it otherwise |
| Seqs.FilterCount | visualize_coal_data.py:271-273 | the comprehension's length is the number of elements that pass |

## Left out

- Plotting and rendering are not modelled. This covers matplotlib figures, pydeck layers, legends, colour maps, axis ranges and layout, `create_histogram`, `get_thickness_color` and `print_cbm_assessment`. Neither are the HTML and PNG outputs, file opening, CSV and shapefile reading and writing, printing, and the command-line `main` functions. Rows and headers arrive as parameters, and the written file is the returned list of rows.
- `float()` is a parameter (`Parser`), because the model has no floating point. Every parse goes through it. A `Parser` returns a real or nothing, so it cannot produce NaN or infinity. In the code, a "nan" thickness passes the range test, because both comparisons at visualize_coal_data.py:107 are false. A "nan" coordinate is loaded and flagged as outside the study area (visualize_coal_data.py:101-105).
- `round(x, 6)` in the location key is a parameter, for the same reason.
- `sqrt` for the transect length is replaced by a `length` argument. The projection and the cross-section need only `SegmentLength`: the length is non-negative and zero exactly for coincident endpoints. The lemmas that remove the square root also assume `IsLength`, which adds that the length squares to `dx² + dy²`. `Transect.KeepsWithoutSqrt` then shows the inclusion test does not depend on how the root is computed.
- CrossSection.CreateCrossSection: the `vertical_exag` argument is not modelled, because the function never uses it.
- Scene.SeamNames: the column's `', '.join(...)` is modelled as the list of names rather than the joined string.
- Text.Lower, Text.Upper and Text.StripLeft/StripRight: ASCII case mapping and ASCII whitespace only. Python's Unicode tables are not modelled.
- `csv.DictReader` fills the keys of a short row with None. The model only distinguishes present from absent keys.
- Combine.CreateCombined: a combined row is modelled as the 17 cells `DictWriter` writes, in header order, not as a dict.
- When a run raises, any exception gives None. Which exception Python would raise first is not modelled.
- SeamSummary.Describe: the minor summary prints only the CRAWFORD min and max, while the modelled range also carries the mean.
- An empty input file, where `next(reader)` raises `StopIteration`, is not modelled, because headers are a parameter.

Behaviour of the code that the model keeps:

- No function checks the vertical exaggeration (visualize_3d.py:49, 94). A zero or negative value is used as given, so a column's height can be negative, and the 10-unit cut (visualize_3d.py:132-134) then drops the column.
- A zero-length transect yields no holes (visualize_3d.py:277-280); nothing is raised.
- A missing thickness counts as 0 in a band bottom (visualize_3d.py:386-388) and in a column bottom (visualize_3d.py:118), so such holes stay in the bands.
- The filter script's box starts at longitude -88.3 (filter_study_area.py:13), but the loader's starts at -88.5 (visualize_coal_data.py:17).
- The filter's coordinate fallback applies only when the file has no county column at all (filter_study_area.py:50-64). A row with an empty county cell is dropped.
- The loader stores `surfelv or 0` (visualize_coal_data.py:95), so a hole never has a missing surface elevation. The `surfelv is None` checks at visualize_3d.py:57, 102 and 287 can never fire, and the model's holes carry a plain number.

=== FILE: combine.dfy ===
/**
 * `create_combined_csv` of summarize_coal_data.py: a left join of the
 * major-coal rows with the minor-coal rows on the `IDS` column. Rows are
 * `csv.DictReader` rows; a missing key read with `row[key]` raises KeyError,
 * which ends the join, while `row.get(key, '')` reads as the empty string.
 */
module Combine {
  import opened Wrappers
  import opened Dicts
  import opened Fields

  const IdsKey: string := "IDS"

  /** Read with `row[key]` from the major row. */
  const CopiedKeys: seq<string> := ["IDS", "COUNTY_NAME", "LONGITUDE", "LATITUDE", "SURFELV", "WELL_TYPE", "LOG_TYPE"]

  /** Read with `row.get(key, '')` from the major row. */
  const MajorSeamKeys: seq<string> := ["TOP_DANVILLE", "THICK_DANVILLE", "TOP_HERRIN", "THICK_HERRIN", "TOP_SPRING", "THICK_SPRING"]

  /** Read with `.get(key, '')` from the matching minor row, if any. */
  const MinorSeamKeys: seq<string> := ["TOP_COLCH", "THICK_COLCH", "TOP_SEELY", "THICK_SEELY"]

  /** The output columns, in order. */
  const CombinedHeaders: seq<string> := CopiedKeys + MajorSeamKeys + MinorSeamKeys

  /** `minor_by_ids`: each minor row under its IDS, later rows overwriting earlier ones; None on a row without IDS. */
  function MinorIndex(minors: seq<Row>): (r: Option<seq<(string, Row)>>)
    ensures r.None? <==> exists j :: 0 <= j < |minors| && IdsKey !in minors[j]
  {
    if |minors| == 0 then Some([])
    else
      var init := minors[..|minors| - 1];
      var m := minors[|minors| - 1];
      assert forall j :: 0 <= j < |init| ==> init[j] == minors[j];
      match MinorIndex(init)
      case None => None
      case Some(d) => if IdsKey in m then Some(Put(d, m[IdsKey], m)) else None
  }

  /** The last minor row with this IDS (reference for the index). */
  function LastWith(minors: seq<Row>, id: string): (r: Option<Row>)
    ensures r.Some? ==> r.value in minors && IdsKey in r.value && r.value[IdsKey] == id
    ensures r.None? <==> forall j :: 0 <= j < |minors| ==> !(IdsKey in minors[j] && minors[j][IdsKey] == id)
  {
    if |minors| == 0 then None
    else
      var m := minors[|minors| - 1];
      if IdsKey in m && m[IdsKey] == id then Some(m)
      else
        var init := minors[..|minors| - 1];
        assert forall j :: 0 <= j < |init| ==> init[j] == minors[j];
        LastWith(init, id)
  }

  /** With duplicate IDS the last minor row wins; an IDS no minor row has is absent. */
  lemma {:induction false} MinorIndexLastWins(minors: seq<Row>, id: string)
    requires MinorIndex(minors).Some?
    ensures Lookup(MinorIndex(minors).value, id) == LastWith(minors, id)
    ensures UniqueKeys(MinorIndex(minors).value)
  {
    if |minors| > 0 {
      var init := minors[..|minors| - 1];
      var m := minors[|minors| - 1];
      MinorIndexLastWins(init, id);
      PutUnique(MinorIndex(init).value, m[IdsKey], m);
    }
  }

  /** The cells of `keys` read with `.get(key, '')`, in order. */
  function CellsOf(row: Row, keys: seq<string>): (r: seq<string>)
    ensures |r| == |keys|
  {
    seq(|keys|, j requires 0 <= j < |keys| => Get(row, keys[j]))
  }

  /**
   * The combined row of one major row and its minor row (`{}` when there is
   * none), as written: the 17 cells in the order of `CombinedHeaders`.
   */
  function CombineRow(major: Row, minor: Row): (r: Option<seq<string>>)
    ensures r.None? <==> MissingCopied(major)
    ensures r.Some? ==> |r.value| == |CombinedHeaders|
  {
    if forall k :: k in CopiedKeys ==> k in major then
      Some(seq(|CopiedKeys|, j requires 0 <= j < |CopiedKeys| => major[CopiedKeys[j]])
           + CellsOf(major, MajorSeamKeys) + CellsOf(minor, MinorSeamKeys))
    else None
  }

  /** A major row lacking one of the columns read with `row[key]`. */
  predicate MissingCopied(major: Row) {
    exists k :: k in CopiedKeys && k !in major
  }

  /** The minor row joined to a major row: the last one with its IDS, or none. */
  function Partner(minors: seq<Row>, major: Row): (r: Row)
    requires IdsKey in major
    ensures LastWith(minors, major[IdsKey]).None? ==> r == map[]
  {
    LastWith(minors, major[IdsKey]).GetOr(map[])
  }

  /** The identifying columns, verbatim from the major row. */
  ghost predicate CopiesIds(out: seq<string>, major: Row) {
    && |out| == |CombinedHeaders|
    && (forall j :: 0 <= j < |CopiedKeys| ==> CopiedKeys[j] in major && out[j] == major[CopiedKeys[j]])
  }

  /** The major seam columns, from the major row or empty. */
  ghost predicate CopiesSeams(out: seq<string>, major: Row) {
    && |out| == |CombinedHeaders|
    && (forall j :: 0 <= j < |MajorSeamKeys| ==> out[|CopiedKeys| + j] == Get(major, MajorSeamKeys[j]))
  }

  ghost predicate CopiesMajor(out: seq<string>, major: Row) {
    CopiesIds(out, major) && CopiesSeams(out, major)
  }

  /** The minor seam columns, from the last minor row with the same IDS or empty. */
  ghost predicate TakesMinor(out: seq<string>, major: Row, minors: seq<Row>) {
    && |out| == |CombinedHeaders|
    && IdsKey in major
    && (forall j :: 0 <= j < |MinorSeamKeys| ==>
          out[|CopiedKeys| + |MajorSeamKeys| + j] ==
            match LastWith(minors, major[IdsKey])
            case None => ""
            case Some(m) => Get(m, MinorSeamKeys[j]))
  }

  /** What the join promises for one output row. */
  ghost predicate Joined(out: seq<string>, major: Row, minors: seq<Row>) {
    CopiesMajor(out, major) && TakesMinor(out, major, minors)
  }

  lemma CombineRowIds(major: Row, minor: Row)
    requires !MissingCopied(major)
    ensures CombineRow(major, minor).Some? && CopiesIds(CombineRow(major, minor).value, major)
  {
    assert forall k :: k in CopiedKeys ==> k in major;
  }

  lemma CombineRowSeams(major: Row, minor: Row)
    requires !MissingCopied(major)
    ensures CombineRow(major, minor).Some? && CopiesSeams(CombineRow(major, minor).value, major)
  {
    assert forall k :: k in CopiedKeys ==> k in major;
  }

  lemma CombineRowMinor(major: Row, minors: seq<Row>)
    requires !MissingCopied(major)
    ensures CombineRow(major, Partner(minors, major)).Some?
    ensures TakesMinor(CombineRow(major, Partner(minors, major)).value, major, minors)
  {
    assert forall k :: k in CopiedKeys ==> k in major;
    var minor := Partner(minors, major);
    assert forall k :: Get(map[], k) == "";
  }

  /**
   * One joined row: every output column present, the major columns copied,
   * and the minor columns from the last minor row with the same IDS, or
   * empty when there is none.
   */
  lemma CombineRowJoined(major: Row, minors: seq<Row>)
    requires !MissingCopied(major)
    ensures CombineRow(major, Partner(minors, major)).Some?
    ensures Joined(CombineRow(major, Partner(minors, major)).value, major, minors)
  {
    CombineRowIds(major, Partner(minors, major));
    CombineRowSeams(major, Partner(minors, major));
    CombineRowMinor(major, minors);
  }

  /** The output cells for the major rows, in order; None when one lacks a copied column. */
  function JoinAll(index: seq<(string, Row)>, majors: seq<Row>): (r: Option<seq<seq<string>>>)
    ensures r.None? <==> exists i :: 0 <= i < |majors| && MissingCopied(majors[i])
    ensures r.Some? ==> |r.value| == |majors|
    ensures r.Some? ==> forall i :: 0 <= i < |majors| ==>
      IdsKey in majors[i] && Some(r.value[i]) == CombineRow(majors[i], Lookup(index, majors[i][IdsKey]).GetOr(map[]))
  {
    if |majors| == 0 then Some([])
    else
      var init := majors[..|majors| - 1];
      var major := majors[|majors| - 1];
      assert forall i :: 0 <= i < |init| ==> init[i] == majors[i];
      match JoinAll(index, init)
      case None => None
      case Some(rows) =>
        if MissingCopied(major) then None
        else
          assert IdsKey in CopiedKeys;
          Some(rows + [CombineRow(major, Lookup(index, major[IdsKey]).GetOr(map[])).value])
  }

  /**
   * `create_combined_csv` up to writing: None exactly when a minor row has no
   * IDS or a major row lacks a copied column; otherwise one row per major
   * row, in order, joined as `Joined` says.
   */
  function CreateCombined(majors: seq<Row>, minors: seq<Row>): (r: Option<seq<seq<string>>>)
    ensures r.None? <==>
      (exists j :: 0 <= j < |minors| && IdsKey !in minors[j]) || (exists i :: 0 <= i < |majors| && MissingCopied(majors[i]))
    ensures r.Some? ==> |r.value| == |majors|
    ensures r.Some? ==> forall i :: 0 <= i < |majors| ==> Joined(r.value[i], majors[i], minors)
  {
    match MinorIndex(minors)
    case None => None
    case Some(index) =>
      var r := JoinAll(index, majors);
      assert r.Some? ==> forall i :: 0 <= i < |majors| ==> Joined(r.value[i], majors[i], minors) by {
        if r.Some? {
          forall i | 0 <= i < |majors| ensures Joined(r.value[i], majors[i], minors) {
            MinorIndexLastWins(minors, majors[i][IdsKey]);
            CombineRowJoined(majors[i], minors);
          }
        }
      }
      r
  }
}

=== FILE: county_shapes.dfy ===
/**
 * County boundary shaping in `load_county_boundaries`: the study-county
 * selection and the splitting of a multi-part shapefile polygon at its part
 * offsets. Reading the shapefile itself is not modelled.
 */
module CountyShapes {
  import opened Seqs
  import opened Text

  type Point = (real, real)

  /** One shapefile record: the county name, its points, and where each part starts. */
  datatype ShapeRecord = ShapeRecord(name: string, points: seq<Point>, parts: seq<nat>)

  datatype County = County(name: string, polygons: seq<seq<Point>>)

  /** Python's `s[a:b]` for non-negative bounds: both clamp to `|s|`, and an inverted range is empty. */
  function Slice<T>(s: seq<T>, a: nat, b: nat): (r: seq<T>)
    ensures a <= b <= |s| ==> r == s[a..b]
    ensures b <= a ==> r == []
  {
    var lo := if a < |s| then a else |s|;
    var hi := if b < |s| then b else |s|;
    if lo >= hi then [] else s[lo..hi]
  }

  /** All pieces laid end to end. */
  function Concat<T>(pieces: seq<seq<T>>): seq<T> {
    if |pieces| == 0 then [] else Concat(pieces[..|pieces| - 1]) + pieces[|pieces| - 1]
  }

  /** The slices between consecutive bounds, in order. */
  function Pieces<T>(s: seq<T>, bounds: seq<nat>): (r: seq<seq<T>>)
    ensures |r| == if |bounds| > 0 then |bounds| - 1 else 0
    ensures forall i :: 0 <= i < |r| ==> r[i] == Slice(s, bounds[i], bounds[i + 1])
  {
    if |bounds| < 2 then []
    else Pieces(s, bounds[..|bounds| - 1]) + [Slice(s, bounds[|bounds| - 2], bounds[|bounds| - 1])]
  }

  /** One polygon per part: the points from its offset up to the next offset, or to the end. */
  function SplitParts<T>(points: seq<T>, parts: seq<nat>): (polygons: seq<seq<T>>)
    ensures |polygons| == |parts|
    ensures forall i :: 0 <= i < |parts| - 1 ==> polygons[i] == Slice(points, parts[i], parts[i + 1])
    ensures |parts| > 0 ==> polygons[|parts| - 1] == Slice(points, parts[|parts| - 1], |points|)
  {
    Pieces(points, parts + [|points|])
  }

  function Clamp(x: nat, n: nat): nat {
    if x < n then x else n
  }

  /** The bounds never decrease once clamped to the sequence length. */
  predicate ClampedNonDecreasing(bounds: seq<nat>, n: nat) {
    forall i, j :: 0 <= i < j < |bounds| ==> Clamp(bounds[i], n) <= Clamp(bounds[j], n)
  }

  /** Consecutive slices between non-decreasing bounds join into one slice. */
  lemma {:induction false} SlicesTelescope<T>(s: seq<T>, bounds: seq<nat>)
    requires |bounds| >= 1
    requires ClampedNonDecreasing(bounds, |s|)
    ensures Concat(Pieces(s, bounds)) == s[Clamp(bounds[0], |s|)..Clamp(bounds[|bounds| - 1], |s|)]
    decreases |bounds|
  {
    if |bounds| > 1 {
      var n := |s|;
      var init := bounds[..|bounds| - 1];
      SlicesTelescope(s, init);
      var a, b, c := Clamp(bounds[0], n), Clamp(bounds[|bounds| - 2], n), Clamp(bounds[|bounds| - 1], n);
      assert a <= b <= c;
      var ps := Pieces(s, bounds);
      assert ps[..|ps| - 1] == Pieces(s, init);
      assert ps[|ps| - 1] == s[b..c];
      assert s[a..b] + s[b..c] == s[a..c];
    }
  }

  /**
   * When the offsets start at 0 and never decrease, the polygons put back
   * together are exactly the shape's points.
   */
  lemma PartsCoverPoints<T>(points: seq<T>, parts: seq<nat>)
    requires |parts| > 0 && parts[0] == 0
    requires forall i, j :: 0 <= i < j < |parts| ==> parts[i] <= parts[j]
    ensures Concat(SplitParts(points, parts)) == points
  {
    var bounds := parts + [|points|];
    assert ClampedNonDecreasing(bounds, |points|);
    SlicesTelescope(points, bounds);
  }

  /** The `if study_counties and name.upper() not in study_counties` test; an empty set keeps all. */
  predicate Selected(name: string, studyCounties: set<string>) {
    |studyCounties| == 0 || Upper(name) in studyCounties
  }

  /** The county a kept record becomes: its name and its parts split into polygons. */
  function CountyOf(rec: ShapeRecord): County {
    County(rec.name, SplitParts(rec.points, rec.parts))
  }

  /**
   * `load_county_boundaries` over records already read from the shapefile:
   * only selected names are kept, and every selected record yields its
   * county with its polygons.
   */
  function LoadCounties(records: seq<ShapeRecord>, studyCounties: set<string>): (r: seq<County>)
    ensures forall c :: c in r ==> Selected(c.name, studyCounties)
    ensures forall i :: 0 <= i < |records| && Selected(records[i].name, studyCounties) ==> CountyOf(records[i]) in r
    ensures |studyCounties| == 0 ==> |r| == |records|
  {
    if |records| == 0 then []
    else
      var init := records[..|records| - 1];
      var rec := records[|records| - 1];
      var prev := LoadCounties(init, studyCounties);
      var r := prev + (if Selected(rec.name, studyCounties) then [CountyOf(rec)] else []);
      assert forall i :: 0 <= i < |init| ==> init[i] == records[i];
      assert forall c :: c in r ==> c in prev || c == CountyOf(rec);
      r
  }

  /** The counties are exactly the selected records, one each, in record order. */
  lemma {:induction false} LoadCountiesInOrder(records: seq<ShapeRecord>, studyCounties: set<string>)
    ensures var kept := Filter(records, (rec: ShapeRecord) => Selected(rec.name, studyCounties));
      var r := LoadCounties(records, studyCounties);
      |r| == |kept| && forall i :: 0 <= i < |r| ==> r[i] == CountyOf(kept[i])
    decreases |records|
  {
    if |records| > 0 {
      LoadCountiesInOrder(records[..|records| - 1], studyCounties);
    }
  }
}

=== FILE: cross_section.dfy ===
/**
 * The data assembled by `create_cross_section` (visualize_3d.py) before it is
 * handed to the plotting library: the surface profile, one filled band per
 * seam, and the elevation extremes used for the axis range.
 *
 * `all_holes` and `all_projected` are dictionaries keyed by seam, modelled
 * as association lists in insertion order.
 */
module CrossSection {
  import opened Wrappers
  import opened Dicts
  import opened Numbers
  import opened Seqs
  import opened Sorting
  import opened DrillHoles
  import opened Transect

  /** The seams in the order the bands are drawn. */
  const BandOrder: seq<Seam> := [Danville, Herrin, Springfield, Colchester, Seelyville]

  /** `all_projected`: each seam's holes projected onto the transect, keys in the same order. */
  function ProjectAll(allHoles: seq<(Seam, seq<DrillHole>)>, start: Point, end: Point, bufferMiles: real, length: real)
    : (r: seq<(Seam, seq<Projected>)>)
    requires SegmentLength(start, end, length)
    ensures |r| == |allHoles|
    ensures forall i :: 0 <= i < |r| ==>
      r[i].0 == allHoles[i].0 && r[i].1 == ProjectToTransect(allHoles[i].1, start, end, bufferMiles, length)
  {
    seq(|allHoles|, i requires 0 <= i < |allHoles| =>
      (allHoles[i].0, ProjectToTransect(allHoles[i].1, start, end, bufferMiles, length)))
  }

  /** A point of the surface profile: distance along the transect, surface elevation, and the hole. */
  datatype SurfacePoint = SurfacePoint(distance: real, elevation: real, hole: DrillHole)

  function SurfacePointOf(p: Projected): SurfacePoint {
    SurfacePoint(p.distance, p.hole.surfelv, p.hole)
  }

  /** The surface points of one seam's projection, in its order. */
  function PointsOf(ps: seq<Projected>): (r: seq<SurfacePoint>)
    ensures |r| == |ps|
    ensures forall i :: 0 <= i < |ps| ==> r[i] == SurfacePointOf(ps[i])
  {
    seq(|ps|, i requires 0 <= i < |ps| => SurfacePointOf(ps[i]))
  }

  /** `surface_points` before sorting: every projected hole of every seam, in dictionary order. */
  function SurfacePoints(allProjected: seq<(Seam, seq<Projected>)>): (r: seq<SurfacePoint>)
    ensures forall i, p :: 0 <= i < |allProjected| && p in allProjected[i].1 ==> SurfacePointOf(p) in r
    ensures |r| == 0 <==> forall i :: 0 <= i < |allProjected| ==> allProjected[i].1 == []
  {
    if |allProjected| == 0 then []
    else
      var init := allProjected[..|allProjected| - 1];
      var last := allProjected[|allProjected| - 1];
      var r := SurfacePoints(init) + PointsOf(last.1);
      assert forall i :: 0 <= i < |init| ==> init[i] == allProjected[i];
      assert forall p :: p in last.1 ==> SurfacePointOf(p) in PointsOf(last.1);
      r
  }

  /** Ordering by distance, the key of `surface_points.sort`. */
  predicate SurfaceLt(a: SurfacePoint, b: SurfacePoint) {
    a.distance < b.distance
  }

  lemma SurfaceLtIsStrictWeakOrder()
    ensures StrictWeakOrder(SurfaceLt)
  {
  }

  /** A seam band sample: distance, seam top, seam bottom and the thickness used (0 when absent). */
  datatype BandEntry = BandEntry(distance: real, top: real, bottom: real, thickness: real)

  /** The seam top is `surfelv - depth`; the bottom is the top less the thickness, or the top itself when thickness is absent. */
  function EntryOf(p: Projected): (e: BandEntry)
    requires p.hole.depth.Some?
    ensures e.distance == p.distance
    ensures e.top + p.hole.depth.value == p.hole.surfelv
    ensures e.bottom + e.thickness == e.top
    ensures e.thickness == if p.hole.thickness.Some? then p.hole.thickness.value else 0.0
  {
    var top := p.hole.surfelv - p.hole.depth.value;
    var thick := p.hole.thickness.GetOr(0.0);
    BandEntry(p.distance, top, top - thick, thick)
  }

  predicate WithDepth(p: Projected) {
    p.hole.depth.Some?
  }

  /** The band samples of one seam before sorting: projected holes without a depth are skipped. */
  function Entries(ps: seq<Projected>): (r: seq<BandEntry>)
    ensures |r| == Count(ps, WithDepth)
    ensures forall p :: p in ps && p.hole.depth.Some? ==> EntryOf(p) in r
  {
    if |ps| == 0 then []
    else
      var init := ps[..|ps| - 1];
      var p := ps[|ps| - 1];
      assert forall q :: q in ps ==> q in init || q == p;
      if p.hole.depth.Some? then Entries(init) + [EntryOf(p)] else Entries(init)
  }

  /** Every sample comes from a projected hole that has a depth. */
  lemma {:induction false} EntriesFromHoles(ps: seq<Projected>, e: BandEntry)
    requires e in Entries(ps)
    ensures exists p :: p in ps && p.hole.depth.Some? && e == EntryOf(p)
    decreases |ps|
  {
    var init := ps[..|ps| - 1];
    var p := ps[|ps| - 1];
    if p.hole.depth.Some? && e == EntryOf(p) {
    } else {
      EntriesFromHoles(init, e);
      var q :| q in init && q.hole.depth.Some? && e == EntryOf(q);
      assert q in ps;
    }
  }

  /** Python's tuple comparison on (distance, top, bottom, thickness). */
  predicate LexLt(a: BandEntry, b: BandEntry) {
    || a.distance < b.distance
    || (a.distance == b.distance && a.top < b.top)
    || (a.distance == b.distance && a.top == b.top && a.bottom < b.bottom)
    || (a.distance == b.distance && a.top == b.top && a.bottom == b.bottom && a.thickness < b.thickness)
  }

  lemma LexLtIsStrictWeakOrder()
    ensures StrictWeakOrder(LexLt)
  {
  }

  /** Entries `LexLt` cannot tell apart are equal, so sorting by it is sorting the tuples. */
  lemma LexEquivIsEqual(a: BandEntry, b: BandEntry)
    ensures Equiv(LexLt, a, b) <==> a == b
  {
  }

  /** One seam's filled band, as handed to the plot. */
  datatype Band = Band(
    seam: Seam,
    distances: seq<real>,
    tops: seq<real>,
    bottoms: seq<real>,
    thicknesses: seq<real>,
    xPolygon: seq<real>,
    yPolygon: seq<real>)

  /** The columns of the sorted samples, and the polygon forward along the tops and back along the bottoms. */
  function MakeBand(seam: Seam, sorted: seq<BandEntry>): (b: Band)
    ensures |b.distances| == |b.tops| == |b.bottoms| == |b.thicknesses| == |sorted|
    ensures forall i :: 0 <= i < |sorted| ==>
      && b.distances[i] == sorted[i].distance && b.tops[i] == sorted[i].top
      && b.bottoms[i] == sorted[i].bottom && b.thicknesses[i] == sorted[i].thickness
    ensures b.seam == seam
    ensures b.xPolygon == b.distances + Reverse(b.distances) && b.yPolygon == b.tops + Reverse(b.bottoms)
  {
    var ds := seq(|sorted|, i requires 0 <= i < |sorted| => sorted[i].distance);
    var tops := seq(|sorted|, i requires 0 <= i < |sorted| => sorted[i].top);
    var bottoms := seq(|sorted|, i requires 0 <= i < |sorted| => sorted[i].bottom);
    var thick := seq(|sorted|, i requires 0 <= i < |sorted| => sorted[i].thickness);
    Band(seam, ds, tops, bottoms, thick, ds + Reverse(ds), tops + Reverse(bottoms))
  }

  /**
   * The polygon has `2n` points: the distances forward then backward, and the
   * tops forward then the bottoms backward, so point `i` and point `2n-1-i`
   * share a distance and span the seam from top to bottom.
   */
  lemma MakeBandPolygon(seam: Seam, sorted: seq<BandEntry>)
    ensures var b := MakeBand(seam, sorted); var n := |sorted|;
      && |b.xPolygon| == 2 * n && |b.yPolygon| == 2 * n
      && (forall i :: 0 <= i < n ==> b.xPolygon[i] == sorted[i].distance && b.yPolygon[i] == sorted[i].top)
      && (forall i :: 0 <= i < n ==>
            b.xPolygon[2 * n - 1 - i] == sorted[i].distance && b.yPolygon[2 * n - 1 - i] == sorted[i].bottom)
  {
    var b := MakeBand(seam, sorted);
    var n := |sorted|;
    forall i | 0 <= i < n
      ensures b.xPolygon[i] == sorted[i].distance && b.yPolygon[i] == sorted[i].top
      ensures b.xPolygon[2 * n - 1 - i] == sorted[i].distance && b.yPolygon[2 * n - 1 - i] == sorted[i].bottom
    {
      MirrorAt(b.distances, b.distances, i);
      MirrorAt(b.tops, b.bottoms, i);
    }
  }

  /** The band of one seam, when it is drawn: the seam is present, projected something, and some of it has a depth. */
  function SeamBand(allProjected: seq<(Seam, seq<Projected>)>, seam: Seam): (r: Option<Band>)
    ensures r.Some? <==> Lookup(allProjected, seam).Some? && Entries(Lookup(allProjected, seam).value) != []
    ensures r.Some? ==> r.value == MakeBand(seam, Sort(Entries(Lookup(allProjected, seam).value), LexLt))
  {
    match Lookup(allProjected, seam)
    case None => None
    case Some(ps) =>
      if ps == [] then None
      else
        var entries := Entries(ps);
        if entries == [] then None
        else Some(MakeBand(seam, Sort(entries, LexLt)))
  }

  /** The bands drawn, in the order of `seams`. */
  function Bands(allProjected: seq<(Seam, seq<Projected>)>, seams: seq<Seam>): (r: seq<Band>)
    ensures |r| <= |seams|
    ensures forall b :: b in r ==> b.seam in seams && SeamBand(allProjected, b.seam) == Some(b)
    ensures forall s :: s in seams && SeamBand(allProjected, s).Some? ==> SeamBand(allProjected, s).value in r
  {
    if |seams| == 0 then []
    else
      var init := Bands(allProjected, seams[..|seams| - 1]);
      var s := seams[|seams| - 1];
      assert forall t :: t in seams ==> t in seams[..|seams| - 1] || t == s;
      match SeamBand(allProjected, s)
      case None => init
      case Some(b) => init + [b]
  }

  /** The bands follow `seams`: one per seam that yields a band, in that order. */
  lemma {:induction false} BandsInOrder(allProjected: seq<(Seam, seq<Projected>)>, seams: seq<Seam>)
    ensures var drawn := Filter(seams, (s: Seam) => SeamBand(allProjected, s).Some?);
      var r := Bands(allProjected, seams);
      |r| == |drawn| && forall i :: 0 <= i < |r| ==> Some(r[i]) == SeamBand(allProjected, drawn[i])
    decreases |seams|
  {
    if |seams| > 0 {
      BandsInOrder(allProjected, seams[..|seams| - 1]);
    }
  }

  /** The seam bottoms of the bands, band after band. */
  function AllBottoms(bands: seq<Band>): (r: seq<real>)
    ensures forall b, x :: b in bands && x in b.bottoms ==> x in r
    ensures forall x :: x in r ==> exists b :: b in bands && x in b.bottoms
  {
    if |bands| == 0 then []
    else
      var init := bands[..|bands| - 1];
      var last := bands[|bands| - 1];
      assert forall b :: b in bands ==> b in init || b == last;
      assert forall b :: b in init ==> b in bands;
      AllBottoms(init) + last.bottoms
  }

  function Elevations(surface: seq<SurfacePoint>): (r: seq<real>)
    ensures |r| == |surface|
    ensures forall i :: 0 <= i < |surface| ==> r[i] == surface[i].elevation
  {
    seq(|surface|, i requires 0 <= i < |surface| => surface[i].elevation)
  }

  /** What `create_cross_section` draws: the sorted surface profile, the bands, and the elevation extremes. */
  datatype Section = Section(surface: seq<SurfacePoint>, bands: seq<Band>, minElev: real, maxElev: real)

  /**
   * The cross-section assembled from `all_projected`: nothing when no hole
   * projected; otherwise the surface points stably sorted by distance, the
   * bands in drawing order, `min_elev` lowered from the lowest surface
   * elevation to every seam bottom, and `max_elev` the highest surface
   * elevation.
   */
  function Assemble(projected: seq<(Seam, seq<Projected>)>): (r: Option<Section>)
    ensures r.None? <==> SurfacePoints(projected) == []
    ensures r.Some? ==> r.value.surface == Sort(SurfacePoints(projected), SurfaceLt)
    ensures r.Some? ==> r.value.bands == Bands(projected, BandOrder)
  {
    var points := SurfacePoints(projected);
    if points == [] then None
    else
      var surface := Sort(points, SurfaceLt);
      var elevations := Elevations(surface);
      var bands := Bands(projected, BandOrder);
      Some(Section(surface, bands, LowerTo(MinOf(elevations), AllBottoms(bands)), MaxOf(elevations)))
  }

  /** `create_cross_section` up to plotting: nothing exactly when no hole of any seam projects onto the transect. */
  function CreateCrossSection(allHoles: seq<(Seam, seq<DrillHole>)>, start: Point, end: Point, bufferMiles: real, length: real)
    : (r: Option<Section>)
    requires SegmentLength(start, end, length)
    ensures r.None? <==> forall i :: 0 <= i < |allHoles| ==> ProjectToTransect(allHoles[i].1, start, end, bufferMiles, length) == []
  {
    var projected := ProjectAll(allHoles, start, end, bufferMiles, length);
    assert forall i :: 0 <= i < |allHoles| ==> projected[i].1 == ProjectToTransect(allHoles[i].1, start, end, bufferMiles, length);
    Assemble(projected)
  }

  /** The surface profile is sorted by distance and is a stable permutation of all projected points. */
  lemma CrossSectionSurface(projected: seq<(Seam, seq<Projected>)>)
    requires Assemble(projected).Some?
    ensures var surface := Assemble(projected).value.surface;
      var points := SurfacePoints(projected);
      && (forall i, j :: 0 <= i < j < |surface| ==> surface[i].distance <= surface[j].distance)
      && multiset(surface) == multiset(points)
      && (forall y :: Class(surface, SurfaceLt, y) == Class(points, SurfaceLt, y))
  {
    var points := SurfacePoints(projected);
    var surface := Sort(points, SurfaceLt);
    SurfaceLtIsStrictWeakOrder();
    SortSorted(points, SurfaceLt);
    SortPermutes(points, SurfaceLt);
    forall i, j | 0 <= i < j < |surface| ensures surface[i].distance <= surface[j].distance {
      assert !SurfaceLt(surface[j], surface[i]);
    }
    forall y ensures Class(surface, SurfaceLt, y) == Class(points, SurfaceLt, y) {
      SortStable(points, SurfaceLt, y);
    }
  }

  /**
   * Every hole projected for any seam is on the surface profile, whether or
   * not it has a depth; with a depth it also gives a band sample.
   */
  lemma ProjectedHoleOnSurface(allHoles: seq<(Seam, seq<DrillHole>)>, start: Point, end: Point, bufferMiles: real, length: real,
                               i: int, p: Projected)
    requires SegmentLength(start, end, length)
    requires 0 <= i < |allHoles|
    requires p in ProjectToTransect(allHoles[i].1, start, end, bufferMiles, length)
    ensures CreateCrossSection(allHoles, start, end, bufferMiles, length).Some?
    ensures SurfacePointOf(p) in CreateCrossSection(allHoles, start, end, bufferMiles, length).value.surface
    ensures p.hole.depth.Some? ==> EntryOf(p) in Entries(ProjectAll(allHoles, start, end, bufferMiles, length)[i].1)
  {
    var projected := ProjectAll(allHoles, start, end, bufferMiles, length);
    var points := SurfacePoints(projected);
    assert p in projected[i].1;
    assert SurfacePointOf(p) in points;
    SortMembers(points, SurfaceLt);
  }

  /** The extremes as computed from a non-empty surface profile and the bands. */
  lemma {:induction false} ElevationExtremes(surface: seq<SurfacePoint>, bands: seq<Band>)
    requires |surface| > 0
    ensures var elevations := Elevations(surface);
      var minElev := LowerTo(MinOf(elevations), AllBottoms(bands));
      var maxElev := MaxOf(elevations);
      && (forall p :: p in surface ==> minElev <= p.elevation <= maxElev)
      && (forall b, x :: b in bands && x in b.bottoms ==> minElev <= x)
      && (exists p :: p in surface && p.elevation == maxElev)
      && ((exists p :: p in surface && p.elevation == minElev) ||
          (exists b :: b in bands && minElev in b.bottoms))
  {
    var elevations := Elevations(surface);
    var mn := MinOf(elevations);
    var minElev := LowerTo(mn, AllBottoms(bands));
    var maxElev := MaxOf(elevations);
    forall p | p in surface ensures minElev <= p.elevation <= maxElev {
      var k :| 0 <= k < |surface| && surface[k] == p;
      assert elevations[k] == p.elevation && elevations[k] in elevations;
    }
    forall b, x | b in bands && x in b.bottoms ensures minElev <= x {
      assert x in AllBottoms(bands);
    }
    var k :| 0 <= k < |elevations| && elevations[k] == maxElev;
    assert surface[k] in surface && surface[k].elevation == maxElev;
    if minElev == mn {
      var j :| 0 <= j < |elevations| && elevations[j] == mn;
      assert surface[j] in surface && surface[j].elevation == minElev;
    } else {
      assert minElev in AllBottoms(bands);
      var b :| b in bands && minElev in b.bottoms;
    }
  }

  /** `min_elev` is at or below every surface elevation and every seam bottom, and is one of them; `max_elev` is the highest surface elevation. */
  lemma CrossSectionExtremes(projected: seq<(Seam, seq<Projected>)>)
    requires Assemble(projected).Some?
    ensures var sec := Assemble(projected).value;
      && (forall p :: p in sec.surface ==> sec.minElev <= p.elevation <= sec.maxElev)
      && (forall b, x :: b in sec.bands && x in b.bottoms ==> sec.minElev <= x)
      && (exists p :: p in sec.surface && p.elevation == sec.maxElev)
      && ((exists p :: p in sec.surface && p.elevation == sec.minElev) ||
          (exists b :: b in sec.bands && sec.minElev in b.bottoms))
  {
    var sec := Assemble(projected).value;
    assert sec.minElev == LowerTo(MinOf(Elevations(sec.surface)), AllBottoms(sec.bands));
    assert sec.maxElev == MaxOf(Elevations(sec.surface));
    ElevationExtremes(sec.surface, sec.bands);
  }

  /**
   * With well-formed holes, each band's bottom is at or below its top: a
   * non-outlier's thickness, when present, is in `[0, 50]`.
   */
  lemma BandBottomBelowTop(allHoles: seq<(Seam, seq<DrillHole>)>, start: Point, end: Point, bufferMiles: real, length: real,
                           seam: Seam, e: BandEntry)
    requires SegmentLength(start, end, length)
    requires forall i, h :: 0 <= i < |allHoles| && h in allHoles[i].1 ==> WellFormed(h)
    requires Lookup(ProjectAll(allHoles, start, end, bufferMiles, length), seam).Some?
    requires e in Entries(Lookup(ProjectAll(allHoles, start, end, bufferMiles, length), seam).value)
    ensures e.bottom <= e.top
    ensures e.top - e.bottom == e.thickness <= ThicknessMax
  {
    var ps := Lookup(ProjectAll(allHoles, start, end, bufferMiles, length), seam).value;
    EntriesFromHoles(ps, e);
    var p :| p in ps && p.hole.depth.Some? && e == EntryOf(p);
    ProjectedIsClean(allHoles, start, end, bufferMiles, length, seam, p);
    CleanEntry(p);
  }

  /** A projected hole of any seam is one of the well-formed input holes, and not an outlier. */
  lemma ProjectedIsClean(allHoles: seq<(Seam, seq<DrillHole>)>, start: Point, end: Point, bufferMiles: real, length: real,
                         seam: Seam, p: Projected)
    requires SegmentLength(start, end, length)
    requires forall i, h :: 0 <= i < |allHoles| && h in allHoles[i].1 ==> WellFormed(h)
    requires Lookup(ProjectAll(allHoles, start, end, bufferMiles, length), seam).Some?
    requires p in Lookup(ProjectAll(allHoles, start, end, bufferMiles, length), seam).value
    ensures WellFormed(p.hole) && !p.hole.IsOutlier()
  {
    var projected := ProjectAll(allHoles, start, end, bufferMiles, length);
    var ps := Lookup(projected, seam).value;
    var k :| 0 <= k < |projected| && projected[k] == (seam, ps);
    assert p in ProjectToTransect(allHoles[k].1, start, end, bufferMiles, length);
    assert p.hole in allHoles[k].1;
  }

  /** The sample of a clean hole spans its thickness, which is at most the cap. */
  lemma CleanEntry(p: Projected)
    requires p.hole.depth.Some? && WellFormed(p.hole) && !p.hole.IsOutlier()
    ensures EntryOf(p).bottom <= EntryOf(p).top
    ensures EntryOf(p).top - EntryOf(p).bottom == EntryOf(p).thickness <= ThicknessMax
  {
    CleanHoleInRange(p.hole);
  }

  /** The samples of a band, row by row. */
  function Samples(b: Band): (r: seq<BandEntry>)
    requires |b.distances| == |b.tops| == |b.bottoms| == |b.thicknesses|
    ensures |r| == |b.distances|
  {
    seq(|b.distances|, i requires 0 <= i < |b.distances| =>
      BandEntry(b.distances[i], b.tops[i], b.bottoms[i], b.thicknesses[i]))
  }

  /**
   * A drawn band holds exactly the seam's samples, in lexicographic order of
   * (distance, top, bottom, thickness), hence with distances non-decreasing.
   */
  lemma BandSorted(allProjected: seq<(Seam, seq<Projected>)>, seam: Seam)
    requires SeamBand(allProjected, seam).Some?
    ensures var b := SeamBand(allProjected, seam).value;
      var entries := Entries(Lookup(allProjected, seam).value);
      && |b.distances| == |b.tops| == |b.bottoms| == |b.thicknesses| == |entries|
      && multiset(Samples(b)) == multiset(entries)
      && (forall i, j :: 0 <= i < j < |entries| ==> !LexLt(Samples(b)[j], Samples(b)[i]))
      && (forall i, j :: 0 <= i < j < |entries| ==> b.distances[i] <= b.distances[j])
  {
    var b := SeamBand(allProjected, seam).value;
    var entries := Entries(Lookup(allProjected, seam).value);
    var sorted := Sort(entries, LexLt);
    assert Samples(b) == sorted;
    LexLtIsStrictWeakOrder();
    SortSorted(entries, LexLt);
    SortPermutes(entries, LexLt);
    forall i, j | 0 <= i < j < |entries| ensures b.distances[i] <= b.distances[j] {
      assert !LexLt(sorted[j], sorted[i]);
    }
  }
}

=== FILE: dicts.dfy ===
/**
 * Python dictionaries as association lists in insertion order. Assigning to
 * an existing key keeps its position; assigning to a new key appends it.
 */
module Dicts {
  import opened Wrappers

  /** The value of the first pair with key `k`. */
  function Lookup<K(==), V>(d: seq<(K, V)>, k: K): (r: Option<V>)
    ensures r.None? <==> forall i :: 0 <= i < |d| ==> d[i].0 != k
    ensures r.Some? ==> (k, r.value) in d
  {
    if |d| == 0 then None
    else if d[0].0 == k then Some(d[0].1)
    else Lookup(d[1..], k)
  }

  function Keys<K, V>(d: seq<(K, V)>): (r: seq<K>)
    ensures |r| == |d|
    ensures forall i :: 0 <= i < |d| ==> r[i] == d[i].0
  {
    if |d| == 0 then [] else [d[0].0] + Keys(d[1..])
  }

  /** No key occurs twice, as in a real dictionary. */
  ghost predicate UniqueKeys<K, V>(d: seq<(K, V)>) {
    forall i, j :: 0 <= i < j < |d| ==> d[i].0 != d[j].0
  }

  /** With unique keys, looking up a stored pair's key finds that pair's value. */
  lemma LookupUnique<K, V>(d: seq<(K, V)>, e: (K, V))
    requires UniqueKeys(d) && e in d
    ensures Lookup(d, e.0) == Some(e.1)
  {
    var i :| 0 <= i < |d| && d[i] == e;
    var v := Lookup(d, e.0).value;
    var j :| 0 <= j < |d| && d[j] == (e.0, v);
    assert i == j;
  }

  /** `d[k] = v`: replace the value in place, or append a new pair. */
  function Put<K(==,!new), V>(d: seq<(K, V)>, k: K, v: V): (r: seq<(K, V)>)
    ensures Lookup(r, k) == Some(v)
    ensures forall k' :: k' != k ==> Lookup(r, k') == Lookup(d, k')
    ensures |r| == if Lookup(d, k).Some? then |d| else |d| + 1
  {
    if |d| == 0 then [(k, v)]
    else if d[0].0 == k then [(k, v)] + d[1..]
    else
      var rest := Put(d[1..], k, v);
      assert ([d[0]] + rest)[1..] == rest;
      [d[0]] + rest
  }

  lemma KeysCons<K, V>(x: (K, V), rest: seq<(K, V)>)
    ensures Keys([x] + rest) == [x.0] + Keys(rest)
  {
    assert forall i :: 0 < i <= |rest| ==> ([x] + rest)[i] == rest[i - 1];
  }

  lemma PutCons<K(!new), V>(d: seq<(K, V)>, k: K, v: V)
    requires |d| > 0 && d[0].0 != k
    ensures Put(d, k, v) == [d[0]] + Put(d[1..], k, v)
    ensures Lookup(d, k) == Lookup(d[1..], k)
  {
  }

  /** Assigning to the first key keeps every key in place. */
  lemma PutKeysFront<K(!new), V>(d: seq<(K, V)>, k: K, v: V)
    requires |d| > 0 && d[0].0 == k
    ensures Keys(Put(d, k, v)) == Keys(d)
  {
    KeysCons((k, v), d[1..]);
    KeysCons(d[0], d[1..]);
    assert d == [d[0]] + d[1..];
  }

  /** Assigning past the first pair keeps that pair's key in front. */
  lemma PutKeysBehind<K(!new), V>(d: seq<(K, V)>, k: K, v: V)
    requires |d| > 0 && d[0].0 != k
    ensures Keys(Put(d, k, v)) == [d[0].0] + Keys(Put(d[1..], k, v))
    ensures Keys(d) == [d[0].0] + Keys(d[1..])
    ensures Lookup(d, k) == Lookup(d[1..], k)
  {
    PutCons(d, k, v);
    KeysCons(d[0], Put(d[1..], k, v));
    KeysCons(d[0], d[1..]);
    assert d == [d[0]] + d[1..];
  }

  /** Putting a key in front commutes with appending one at the end. */
  lemma ConsKeys<K>(front: K, rest: seq<K>, put: seq<K>, k: K, present: bool)
    requires put == if present then rest else rest + [k]
    ensures [front] + put == if present then [front] + rest else ([front] + rest) + [k]
  {
  }

  /** A new key goes to the end; an existing key keeps its place; other pairs do not move. */
  lemma {:induction false} PutKeys<K(!new), V>(d: seq<(K, V)>, k: K, v: V)
    ensures Keys(Put(d, k, v)) == if Lookup(d, k).Some? then Keys(d) else Keys(d) + [k]
  {
    if |d| == 0 {
      assert Keys(Put(d, k, v)) == [k];
    } else if d[0].0 == k {
      PutKeysFront(d, k, v);
    } else {
      PutKeys(d[1..], k, v);
      PutKeysBehind(d, k, v);
      ConsKeys(d[0].0, Keys(d[1..]), Keys(Put(d[1..], k, v)), k, Lookup(d[1..], k).Some?);
    }
  }

  /** A pair in front of unique pairs that do not share its key. */
  lemma ConsUnique<K, V>(x: (K, V), rest: seq<(K, V)>)
    requires UniqueKeys(rest)
    requires forall j :: 0 <= j < |rest| ==> rest[j].0 != x.0
    ensures UniqueKeys([x] + rest)
  {
    assert forall i :: 0 < i <= |rest| ==> ([x] + rest)[i] == rest[i - 1];
  }

  /** Assignment keeps the keys unique. */
  lemma {:induction false} PutUnique<K(!new), V>(d: seq<(K, V)>, k: K, v: V)
    requires UniqueKeys(d)
    ensures UniqueKeys(Put(d, k, v))
  {
    if |d| == 0 {
    } else if d[0].0 == k {
      var r := Put(d, k, v);
      assert forall i :: 0 <= i < |r| ==> r[i].0 == d[i].0;
    } else {
      var tail := d[1..];
      assert forall i :: 0 <= i < |tail| ==> tail[i] == d[i + 1];
      PutCons(d, k, v);
      PutUnique(tail, k, v);
      assert Lookup(tail, d[0].0).None?;
      ConsUnique(d[0], Put(tail, k, v));
    }
  }

  /** The values' measures added up. */
  function SumBy<K, V>(d: seq<(K, V)>, f: V -> nat): nat {
    if |d| == 0 then 0 else f(d[0].1) + SumBy(d[1..], f)
  }

  /** Assignment trades the old value's measure for the new one's. */
  lemma {:induction false} PutSumBy<K(!new), V>(d: seq<(K, V)>, k: K, v: V, f: V -> nat)
    ensures SumBy(Put(d, k, v), f) + (if Lookup(d, k).Some? then f(Lookup(d, k).value) else 0)
         == SumBy(d, f) + f(v)
  {
    if |d| > 0 && d[0].0 != k {
      PutSumBy(d[1..], k, v, f);
      assert Put(d, k, v)[1..] == Put(d[1..], k, v);
    }
  }

  /** Assignment under a key from `keys` keeps every key in `keys`. */
  lemma {:induction false} PutKeysWithin<K(!new), V>(d: seq<(K, V)>, k: K, v: V, keys: set<K>)
    requires k in keys
    requires forall e :: e in d ==> e.0 in keys
    ensures forall e :: e in Put(d, k, v) ==> e.0 in keys
  {
    if |d| > 0 && d[0].0 != k {
      assert forall e :: e in d[1..] ==> e in d;
      PutKeysWithin(d[1..], k, v, keys);
      assert Put(d, k, v) == [d[0]] + Put(d[1..], k, v);
    }
  }
}

=== FILE: drill_holes.dfy ===
/**
 * Per-row drill-hole loading and validation (`load_drill_holes`,
 * `filter_valid`, `get_depth_color` and the depth bands of
 * `create_depth_map` in visualize_coal_data.py).
 */
module DrillHoles {
  import opened Wrappers
  import opened Seqs
  import opened Fields

  // Domain bounds for flagging (feet).
  const ThicknessMin: real := 0.0
  const ThicknessMax: real := 50.0
  const DepthMin: real := 0.0
  const DepthMax: real := 2500.0

  // Study-area box (decimal degrees, inclusive).
  const StudyLatMin: real := 38.5
  const StudyLatMax: real := 39.6
  const StudyLonMin: real := -88.5
  const StudyLonMax: real := -87.3

  // Depth bands of the CBM colour scheme (feet).
  const OptimalDepthLow: real := 500.0
  const OptimalDepthHigh: real := 1000.0

  /** The five coal seams and their column names in the combined CSV. */
  datatype Seam = Herrin | Springfield | Danville | Colchester | Seelyville {
    function TopCol(): string {
      match this
      case Herrin => "TOP_HERRIN"
      case Springfield => "TOP_SPRING"
      case Danville => "TOP_DANVILLE"
      case Colchester => "TOP_COLCH"
      case Seelyville => "TOP_SEELY"
    }

    function ThickCol(): string {
      match this
      case Herrin => "THICK_HERRIN"
      case Springfield => "THICK_SPRING"
      case Danville => "THICK_DANVILLE"
      case Colchester => "THICK_COLCH"
      case Seelyville => "THICK_SEELY"
    }

    function Name(): string {
      match this
      case Herrin => "Herrin (No. 6)"
      case Springfield => "Springfield (No. 5)"
      case Danville => "Danville"
      case Colchester => "Colchester"
      case Seelyville => "Seelyville"
    }
  }

  /** Why a hole was flagged; `NotOutlier` is the source's empty reason string. */
  datatype OutlierReason =
    | NotOutlier
    | CoordsOutsideStudyArea
    | ThicknessOutOfRange(thickness: real)
    | DepthOutOfRange(depth: real)

  /** One drill hole's record for one seam. `surfelv` is 0 when the cell was blank. */
  datatype DrillHole = DrillHole(
    ids: string,
    county: string,
    lon: real,
    lat: real,
    surfelv: real,
    thickness: Option<real>,
    depth: Option<real>,
    reason: OutlierReason)
  {
    predicate IsOutlier() { reason != NotOutlier }
  }

  /** The counters of the `stats` dictionary. */
  datatype Stats = Stats(
    totalRows: nat,
    validCoords: nat,
    hasThickness: nat,
    hasDepth: nat,
    outliersThickness: nat,
    outliersDepth: nat,
    outliersCoords: nat)

  predicate InStudyArea(lon: real, lat: real) {
    StudyLonMin <= lon <= StudyLonMax && StudyLatMin <= lat <= StudyLatMax
  }

  /** Depth below the surface, known only when both elevations are known. */
  function DepthOf(surfelv: Option<real>, top: Option<real>): (d: Option<real>)
    ensures d.Some? <==> surfelv.Some? && top.Some?
    ensures d.Some? ==> top.value + d.value == surfelv.value
  {
    if surfelv.Some? && top.Some? then Some(surfelv.value - top.value) else None
  }

  /**
   * The outlier check, in its fixed priority: coordinates first, then
   * thickness, and depth only when thickness is absent.
   */
  function Classify(lon: real, lat: real, thickness: Option<real>, depth: Option<real>): (r: OutlierReason)
    ensures r.CoordsOutsideStudyArea? <==> !InStudyArea(lon, lat)
    ensures r.ThicknessOutOfRange? <==>
      InStudyArea(lon, lat) && thickness.Some? &&
      (thickness.value < ThicknessMin || thickness.value > ThicknessMax)
    ensures r.ThicknessOutOfRange? ==> r.thickness == thickness.value
    ensures r.DepthOutOfRange? <==>
      InStudyArea(lon, lat) && thickness.None? && depth.Some? &&
      (depth.value < DepthMin || depth.value > DepthMax)
    ensures r.DepthOutOfRange? ==> r.depth == depth.value
    ensures thickness.Some? ==> !r.DepthOutOfRange?
    ensures r.NotOutlier? <==>
      && InStudyArea(lon, lat)
      && (thickness.Some? ==> ThicknessMin <= thickness.value <= ThicknessMax)
      && (thickness.None? && depth.Some? ==> DepthMin <= depth.value <= DepthMax)
  {
    if !InStudyArea(lon, lat) then CoordsOutsideStudyArea
    else if thickness.Some? then
      if thickness.value < ThicknessMin || thickness.value > ThicknessMax
      then ThicknessOutOfRange(thickness.value) else NotOutlier
    else if depth.Some? then
      if depth.value < DepthMin || depth.value > DepthMax
      then DepthOutOfRange(depth.value) else NotOutlier
    else NotOutlier
  }

  function Lon(parse: Parser, row: Row): Option<real> {
    ParseFloat(parse, Some(Get(row, "LONGITUDE")))
  }

  function Lat(parse: Parser, row: Row): Option<real> {
    ParseFloat(parse, Some(Get(row, "LATITUDE")))
  }

  predicate HasCoords(parse: Parser, row: Row) {
    Lon(parse, row).Some? && Lat(parse, row).Some?
  }

  /** The hole one CSV row yields for `seam`, or None when the row is skipped. */
  function LoadRow(parse: Parser, seam: Seam, row: Row): (r: Option<DrillHole>)
    ensures r.None? <==> !HasCoords(parse, row)
  {
    var lon := Lon(parse, row);
    var lat := Lat(parse, row);
    var surfelv := ParseFloat(parse, Some(Get(row, "SURFELV")));
    if lon.None? || lat.None? then None
    else
      var top := ParseFloat(parse, Some(Get(row, seam.TopCol())));
      var thickness := ParseFloat(parse, Some(Get(row, seam.ThickCol())));
      var depth := DepthOf(surfelv, top);
      Some(DrillHole(
        Get(row, "IDS"), Get(row, "COUNTY_NAME"), lon.value, lat.value,
        surfelv.GetOr(0.0), thickness, depth,
        Classify(lon.value, lat.value, thickness, depth)))
  }

  /**
   * What a loaded hole holds: the row's coordinates, the surface elevation
   * defaulted to 0, the seam's thickness, a depth exactly when both surface
   * and seam-top elevations parse, and the outlier check's verdict.
   */
  lemma LoadRowFields(parse: Parser, seam: Seam, row: Row)
    requires HasCoords(parse, row)
    ensures var h := LoadRow(parse, seam, row).value;
      var surfelv := ParseFloat(parse, Some(Get(row, "SURFELV")));
      var top := ParseFloat(parse, Some(Get(row, seam.TopCol())));
      && h.lon == Lon(parse, row).value
      && h.lat == Lat(parse, row).value
      && h.surfelv == surfelv.GetOr(0.0)
      && h.thickness == ParseFloat(parse, Some(Get(row, seam.ThickCol())))
      && (h.depth.Some? <==> surfelv.Some? && top.Some?)
      && (h.depth.Some? ==> h.depth.value == surfelv.value - top.value)
      && h.reason == Classify(h.lon, h.lat, h.thickness, h.depth)
  {
  }

  /** The holes of `rows` in row order, rows without coordinates dropped. */
  function Loaded(parse: Parser, seam: Seam, rows: seq<Row>): (r: seq<DrillHole>)
    ensures |r| == RowsWithCoords(parse, rows)
  {
    if |rows| == 0 then []
    else
      var init := Loaded(parse, seam, rows[..|rows| - 1]);
      match LoadRow(parse, seam, rows[|rows| - 1])
      case Some(h) => init + [h]
      case None => init
  }

  lemma LoadedAppend(parse: Parser, seam: Seam, rows: seq<Row>, row: Row)
    ensures Loaded(parse, seam, rows + [row]) ==
      Loaded(parse, seam, rows) + (match LoadRow(parse, seam, row) case Some(h) => [h] case None => [])
  {
    assert (rows + [row])[..|rows|] == rows;
  }

  /** Reading one more row of the file. */
  lemma LoadedStep(parse: Parser, seam: Seam, rows: seq<Row>, i: nat)
    requires i < |rows|
    ensures Loaded(parse, seam, rows[..i + 1]) ==
      Loaded(parse, seam, rows[..i]) + (match LoadRow(parse, seam, rows[i]) case Some(h) => [h] case None => [])
  {
    assert rows[..i + 1] == rows[..i] + [rows[i]];
    LoadedAppend(parse, seam, rows[..i], rows[i]);
  }

  /** A hole as `load_drill_holes` builds it: its outlier reason is the outlier test's verdict on its own fields. */
  predicate WellFormed(h: DrillHole) {
    h.reason == Classify(h.lon, h.lat, h.thickness, h.depth)
  }

  /** Every loaded hole is well formed. */
  lemma {:induction false} LoadedWellFormed(parse: Parser, seam: Seam, rows: seq<Row>)
    ensures forall h :: h in Loaded(parse, seam, rows) ==> WellFormed(h)
    decreases |rows|
  {
    if |rows| > 0 {
      LoadedWellFormed(parse, seam, rows[..|rows| - 1]);
      if HasCoords(parse, rows[|rows| - 1]) {
        LoadRowFields(parse, seam, rows[|rows| - 1]);
      }
    }
  }

  /** A well-formed hole that is not an outlier lies in the study area and has an in-range thickness, or no thickness and an in-range depth. */
  lemma CleanHoleInRange(h: DrillHole)
    requires WellFormed(h) && !h.IsOutlier()
    ensures InStudyArea(h.lon, h.lat)
    ensures h.thickness.Some? ==> ThicknessMin <= h.thickness.value <= ThicknessMax
    ensures h.thickness.None? && h.depth.Some? ==> DepthMin <= h.depth.value <= DepthMax
  {
  }

  /** How many rows carry both coordinates. */
  function RowsWithCoords(parse: Parser, rows: seq<Row>): (n: nat)
    ensures n <= |rows|
  {
    if |rows| == 0 then 0
    else RowsWithCoords(parse, rows[..|rows| - 1]) + (if HasCoords(parse, rows[|rows| - 1]) then 1 else 0)
  }

  predicate HasThickness(h: DrillHole) { h.thickness.Some? }
  predicate HasDepth(h: DrillHole) { h.depth.Some? }
  predicate FlaggedCoords(h: DrillHole) { h.reason.CoordsOutsideStudyArea? }
  predicate FlaggedThickness(h: DrillHole) { h.reason.ThicknessOutOfRange? }
  predicate FlaggedDepth(h: DrillHole) { h.reason.DepthOutOfRange? }
  predicate Flagged(h: DrillHole) { h.IsOutlier() }

  /** A flagged hole has exactly one reason, so the reason counters split the flagged count. */
  lemma {:induction false} FlaggedCountSplits(holes: seq<DrillHole>)
    ensures Count(holes, FlaggedCoords) + Count(holes, FlaggedThickness) + Count(holes, FlaggedDepth)
            == Count(holes, Flagged)
    decreases |holes|
  {
    if |holes| > 0 {
      FlaggedCountSplits(holes[..|holes| - 1]);
    }
  }

  /** The per-hole counters of `stats`: thickness, depth and the three outlier reasons. */
  datatype Counters = Counters(hasThickness: nat, hasDepth: nat, coords: nat, thickness: nat, depth: nat)

  /** One hole's increments; the reasons exclude each other, so at most one outlier counter moves. */
  function Bump(c: Counters, h: DrillHole): (r: Counters)
    ensures r.coords + r.thickness + r.depth == c.coords + c.thickness + c.depth + (if Flagged(h) then 1 else 0)
  {
    Counters(
      c.hasThickness + (if HasThickness(h) then 1 else 0),
      c.hasDepth + (if HasDepth(h) then 1 else 0),
      c.coords + (if FlaggedCoords(h) then 1 else 0),
      c.thickness + (if FlaggedThickness(h) then 1 else 0),
      c.depth + (if FlaggedDepth(h) then 1 else 0))
  }

  /** The counters after appending `holes` one by one. */
  function Tally(holes: seq<DrillHole>): Counters {
    if |holes| == 0 then Counters(0, 0, 0, 0, 0)
    else Bump(Tally(holes[..|holes| - 1]), holes[|holes| - 1])
  }

  lemma TallyAppend(holes: seq<DrillHole>, h: DrillHole)
    ensures Tally(holes + [h]) == Bump(Tally(holes), h)
  {
    assert (holes + [h])[..|holes|] == holes;
  }

  /** Each counter of the tally counts the holes with its property. */
  lemma {:induction false} TallyCounts(holes: seq<DrillHole>)
    ensures var c := Tally(holes);
      && c.hasThickness == Count(holes, HasThickness)
      && c.hasDepth == Count(holes, HasDepth)
      && c.coords == Count(holes, FlaggedCoords)
      && c.thickness == Count(holes, FlaggedThickness)
      && c.depth == Count(holes, FlaggedDepth)
    decreases |holes|
  {
    if |holes| > 0 {
      TallyCounts(holes[..|holes| - 1]);
    }
  }

  /** `load_drill_holes` over rows already read from the CSV file. */
  method LoadDrillHoles(parse: Parser, seam: Seam, rows: seq<Row>) returns (holes: seq<DrillHole>, stats: Stats)
    ensures holes == Loaded(parse, seam, rows)
    ensures stats.totalRows == |rows|
    ensures stats.validCoords == |holes| == RowsWithCoords(parse, rows)
    ensures stats.hasThickness == Count(holes, HasThickness)
    ensures stats.hasDepth == Count(holes, HasDepth)
    ensures stats.outliersCoords == Count(holes, FlaggedCoords)
    ensures stats.outliersThickness == Count(holes, FlaggedThickness)
    ensures stats.outliersDepth == Count(holes, FlaggedDepth)
    ensures stats.outliersCoords + stats.outliersThickness + stats.outliersDepth == Count(holes, Flagged)
  {
    holes := [];
    var totalRows := 0;
    var c := Counters(0, 0, 0, 0, 0);
    var i := 0;
    while i < |rows|
      invariant i <= |rows|
      invariant holes == Loaded(parse, seam, rows[..i])
      invariant totalRows == i
      invariant c == Tally(holes)
    {
      LoadedStep(parse, seam, rows, i);
      totalRows := totalRows + 1;
      var loaded := LoadRow(parse, seam, rows[i]);
      if loaded.Some? {
        var h := loaded.value;
        TallyAppend(holes, h);
        c := Bump(c, h);
        holes := holes + [h];
      }
      i := i + 1;
    }
    assert rows[..i] == rows;
    TallyCounts(holes);
    FlaggedCountSplits(holes);
    stats := Stats(totalRows, |holes|, c.hasThickness, c.hasDepth, c.thickness, c.depth, c.coords);
  }

  /** The criteria of `filter_valid`. */
  predicate Meets(h: DrillHole, requireThickness: bool, requireDepth: bool, excludeOutliers: bool) {
    && !(excludeOutliers && h.IsOutlier())
    && !(requireThickness && h.thickness.None?)
    && !(requireDepth && h.depth.None?)
  }

  /** The holes meeting every enabled criterion, in input order (reference definition). */
  function Valid(holes: seq<DrillHole>, requireThickness: bool, requireDepth: bool, excludeOutliers: bool)
    : (r: seq<DrillHole>)
    ensures |r| <= |holes|
  {
    if |holes| == 0 then []
    else
      var init := Valid(holes[..|holes| - 1], requireThickness, requireDepth, excludeOutliers);
      var h := holes[|holes| - 1];
      if Meets(h, requireThickness, requireDepth, excludeOutliers) then init + [h] else init
  }

  /** `Valid` keeps the input order. */
  lemma {:induction false} ValidIsSubseq(holes: seq<DrillHole>, requireThickness: bool, requireDepth: bool, excludeOutliers: bool)
    ensures IsSubseq(Valid(holes, requireThickness, requireDepth, excludeOutliers), holes)
  {
    if |holes| > 0 {
      var init := holes[..|holes| - 1];
      var h := holes[|holes| - 1];
      ValidIsSubseq(init, requireThickness, requireDepth, excludeOutliers);
      assert holes == init + [h];
      var r0 := Valid(init, requireThickness, requireDepth, excludeOutliers);
      if Meets(h, requireThickness, requireDepth, excludeOutliers) {
        SubseqAppendBoth(r0, init, h);
      } else {
        SubseqAppendRight(r0, init, h);
      }
    }
  }

  /** `Valid` keeps every meeting hole as often as it occurs, and nothing else. */
  lemma {:induction false} ValidMultiplicity(holes: seq<DrillHole>, requireThickness: bool, requireDepth: bool, excludeOutliers: bool, x: DrillHole)
    ensures multiset(Valid(holes, requireThickness, requireDepth, excludeOutliers))[x] ==
            if Meets(x, requireThickness, requireDepth, excludeOutliers) then multiset(holes)[x] else 0
  {
    if |holes| > 0 {
      var init := holes[..|holes| - 1];
      var h := holes[|holes| - 1];
      ValidMultiplicity(init, requireThickness, requireDepth, excludeOutliers, x);
      assert holes == init + [h];
      assert multiset(holes) == multiset(init) + multiset{h};
    }
  }

  /** With every criterion off, `Valid` is the identity. */
  lemma {:induction false} ValidAllOff(holes: seq<DrillHole>)
    ensures Valid(holes, false, false, false) == holes
  {
    if |holes| > 0 {
      ValidAllOff(holes[..|holes| - 1]);
      assert holes == holes[..|holes| - 1] + [holes[|holes| - 1]];
    }
  }

  /**
   * `filter_valid`: exactly the holes meeting every enabled criterion, in
   * input order; with every criterion off, the input itself.
   */
  method FilterValid(holes: seq<DrillHole>, requireThickness: bool, requireDepth: bool, excludeOutliers: bool)
    returns (result: seq<DrillHole>)
    ensures result == Valid(holes, requireThickness, requireDepth, excludeOutliers)
    ensures IsSubseq(result, holes)
    ensures forall h :: multiset(result)[h] ==
                        if Meets(h, requireThickness, requireDepth, excludeOutliers) then multiset(holes)[h] else 0
    ensures !requireThickness && !requireDepth && !excludeOutliers ==> result == holes
  {
    result := [];
    var i := 0;
    while i < |holes|
      invariant i <= |holes|
      invariant result == Valid(holes[..i], requireThickness, requireDepth, excludeOutliers)
    {
      var h := holes[i];
      assert holes[..i + 1][..i] == holes[..i];
      if excludeOutliers && h.IsOutlier() {
      } else if requireThickness && h.thickness.None? {
      } else if requireDepth && h.depth.None? {
      } else {
        result := result + [h];
      }
      i := i + 1;
    }
    assert holes[..i] == holes;
    ValidIsSubseq(holes, requireThickness, requireDepth, excludeOutliers);
    forall x ensures multiset(result)[x] ==
                     if Meets(x, requireThickness, requireDepth, excludeOutliers) then multiset(holes)[x] else 0 {
      ValidMultiplicity(holes, requireThickness, requireDepth, excludeOutliers, x);
    }
    if !requireThickness && !requireDepth && !excludeOutliers {
      ValidAllOff(holes);
    }
  }

  datatype Color = Gray | Blue | Green | Orange

  /** `get_depth_color`: a missing depth is gray, then shallow / optimal / deep. */
  function DepthColor(depth: Option<real>): (c: Color)
    ensures c == Gray <==> depth.None?
    ensures c == Blue <==> depth.Some? && depth.value < OptimalDepthLow
    ensures c == Green <==> depth.Some? && OptimalDepthLow <= depth.value <= OptimalDepthHigh
    ensures c == Orange <==> depth.Some? && depth.value > OptimalDepthHigh
  {
    if depth.None? then Gray
    else if depth.value < OptimalDepthLow then Blue
    else if depth.value <= OptimalDepthHigh then Green
    else Orange
  }

  // The list comprehensions of `create_depth_map`.
  predicate HasValidDepth(h: DrillHole) { h.depth.Some? && !h.IsOutlier() }
  predicate IsShallow(h: DrillHole) { h.depth.Some? && h.depth.value < OptimalDepthLow }
  predicate IsOptimal(h: DrillHole) { h.depth.Some? && OptimalDepthLow <= h.depth.value <= OptimalDepthHigh }
  predicate IsDeep(h: DrillHole) { h.depth.Some? && h.depth.value > OptimalDepthHigh }

  datatype DepthBands = DepthBands(valid: seq<DrillHole>, shallow: seq<DrillHole>, optimal: seq<DrillHole>, deep: seq<DrillHole>)

  function SplitByDepth(holes: seq<DrillHole>): DepthBands {
    var valid := Filter(holes, HasValidDepth);
    DepthBands(valid, Filter(valid, IsShallow), Filter(valid, IsOptimal), Filter(valid, IsDeep))
  }

  lemma {:induction false} BandCountsAddUp(valid: seq<DrillHole>)
    requires forall h :: h in valid ==> h.depth.Some?
    ensures Count(valid, IsShallow) + Count(valid, IsOptimal) + Count(valid, IsDeep) == |valid|
    decreases |valid|
  {
    if |valid| > 0 {
      assert forall h :: h in valid[..|valid| - 1] ==> h in valid;
      BandCountsAddUp(valid[..|valid| - 1]);
    }
  }

  /** The shallow, optimal and deep lists together hold every valid hole once. */
  lemma DepthBandsCount(holes: seq<DrillHole>)
    ensures var b := SplitByDepth(holes);
      |b.shallow| + |b.optimal| + |b.deep| == |b.valid|
  {
    var valid := Filter(holes, HasValidDepth);
    FilterCount(valid, IsShallow);
    FilterCount(valid, IsOptimal);
    FilterCount(valid, IsDeep);
    BandCountsAddUp(valid);
  }

  /**
   * The valid list is the non-outlier holes that have a depth, and the
   * shallow, optimal and deep lists are exactly the valid holes that
   * `get_depth_color` paints blue, green and orange.
   */
  lemma DepthBandsColors(holes: seq<DrillHole>, h: DrillHole)
    ensures var b := SplitByDepth(holes);
      && (h in b.valid <==> h in holes && h.depth.Some? && !h.IsOutlier())
      && (h in b.shallow <==> h in b.valid && DepthColor(h.depth) == Blue)
      && (h in b.optimal <==> h in b.valid && DepthColor(h.depth) == Green)
      && (h in b.deep <==> h in b.valid && DepthColor(h.depth) == Orange)
  {
    var valid := Filter(holes, HasValidDepth);
    FilterMultiplicity(holes, HasValidDepth, h);
    FilterMultiplicity(valid, IsShallow, h);
    FilterMultiplicity(valid, IsOptimal, h);
    FilterMultiplicity(valid, IsDeep, h);
  }
}

=== FILE: fields.dfy ===
/**
 * Cell access and number parsing shared by the scripts. A `csv.DictReader`
 * row is a map from column name to text; Python's `float()` is not modelled
 * and is passed in as `parse`, which answers None where `float()` raises.
 */
module Fields {
  import opened Wrappers
  import opened Text

  type Row = map<string, string>

  /** Python's `float()`: a number, or None where it raises ValueError. */
  type Parser = string -> Option<real>

  /** `row.get(key, '')`. */
  function Get(row: Row, key: string): (v: string)
    ensures key !in row ==> v == ""
  {
    if key in row then row[key] else ""
  }

  /**
   * `parse_float`: absent and blank cells are None without consulting the
   * parser; any other text is whatever the parser makes of it. The source's
   * blank test `val.strip() == ''` is `AllSpace` (`StripEmptyIffAllSpace`).
   */
  function ParseFloat(parse: Parser, val: Option<string>): (r: Option<real>)
    ensures val.None? ==> r.None?
    ensures val.Some? && AllSpace(val.value) ==> r.None?
    ensures val.Some? && !AllSpace(val.value) ==> r == parse(val.value)
  {
    match val
    case None => None
    case Some(s) =>
      if AllSpace(s) then None else parse(s)
  }
}

=== FILE: numbers.dfy ===
/** Minimum, maximum, running minimum and sum of lists of reals. */
module Numbers {

  /** The smallest of a non-empty list (Python's `min`). */
  function MinOf(s: seq<real>): (m: real)
    requires |s| > 0
    ensures m in s
    ensures forall x :: x in s ==> m <= x
  {
    if |s| == 1 then s[0]
    else
      var m := MinOf(s[..|s| - 1]);
      assert forall x :: x in s ==> x in s[..|s| - 1] || x == s[|s| - 1];
      if s[|s| - 1] < m then s[|s| - 1] else m
  }

  /** The largest of a non-empty list (Python's `max`). */
  function MaxOf(s: seq<real>): (m: real)
    requires |s| > 0
    ensures m in s
    ensures forall x :: x in s ==> x <= m
  {
    if |s| == 1 then s[0]
    else
      var m := MaxOf(s[..|s| - 1]);
      assert forall x :: x in s ==> x in s[..|s| - 1] || x == s[|s| - 1];
      if s[|s| - 1] > m then s[|s| - 1] else m
  }

  /** The running minimum: start at `m` and lower it to each value below it. */
  function LowerTo(m: real, xs: seq<real>): (r: real)
    ensures r <= m
    ensures forall x :: x in xs ==> r <= x
    ensures r == m || r in xs
  {
    if |xs| == 0 then m
    else
      var r := LowerTo(m, xs[..|xs| - 1]);
      assert forall x :: x in xs ==> x in xs[..|xs| - 1] || x == xs[|xs| - 1];
      if xs[|xs| - 1] < r then xs[|xs| - 1] else r
  }

  /** Python's `sum`. */
  function Sum(s: seq<real>): real {
    if |s| == 0 then 0.0 else Sum(s[..|s| - 1]) + s[|s| - 1]
  }

  /** `n` copies of `x` added up: `n * x` without multiplication. */
  function Times(n: nat, x: real): real {
    if n == 0 then 0.0 else Times(n - 1, x) + x
  }

  lemma {:induction false} TimesIsProduct(n: nat, x: real)
    ensures Times(n, x) == n as real * x
  {
    if n > 0 {
      TimesIsProduct(n - 1, x);
      AddOneTimes((n - 1) as real, x);
    }
  }

  /** `n * min <= sum <= n * max`, as repeated sums. */
  lemma {:induction false} SumBounds(s: seq<real>)
    requires |s| > 0
    ensures Times(|s|, MinOf(s)) <= Sum(s) <= Times(|s|, MaxOf(s))
  {
    if |s| == 1 {
      assert Sum(s) == Sum(s[..0]) + s[0];
    } else {
      var init, last := s[..|s| - 1], s[|s| - 1];
      SumBounds(init);
      assert forall x :: x in init ==> x in s;
      assert last in s;
      TimesMonotone(|init|, MinOf(s), MinOf(init));
      TimesMonotone(|init|, MaxOf(init), MaxOf(s));
    }
  }

  lemma {:induction false} TimesMonotone(n: nat, a: real, b: real)
    requires a <= b
    ensures Times(n, a) <= Times(n, b)
  {
    if n > 0 {
      TimesMonotone(n - 1, a, b);
    }
  }

  /** The mean of a non-empty list lies between its minimum and its maximum. */
  lemma MeanBetween(s: seq<real>)
    requires |s| > 0
    ensures MinOf(s) <= Sum(s) / |s| as real <= MaxOf(s)
  {
    SumBounds(s);
    MeanOfBounds(Sum(s), |s|, MinOf(s), MaxOf(s));
  }

  /** `count * lo <= total <= count * hi` bounds the mean `total / count`. */
  lemma MeanOfBounds(total: real, count: nat, lo: real, hi: real)
    requires count > 0 && Times(count, lo) <= total <= Times(count, hi)
    ensures lo <= total / count as real <= hi
  {
    TimesIsProduct(count, lo);
    TimesIsProduct(count, hi);
    DivBetween(total, count as real, lo, hi);
  }

  /** `n * lo <= total <= n * hi` gives `lo <= total / n <= hi` for positive `n`. */
  lemma DivBetween(total: real, n: real, lo: real, hi: real)
    requires n > 0.0 && n * lo <= total <= n * hi
    ensures lo <= total / n <= hi
  {
    var mean := total / n;
    DivTimes(total, n);
    if mean < lo {
      MulLess(mean, lo, n);
    }
    if mean > hi {
      MulLess(hi, mean, n);
    }
  }

  lemma AddOneTimes(n: real, x: real)
    ensures (n + 1.0) * x == n * x + x
  {
  }

  lemma DivTimes(a: real, n: real)
    requires n != 0.0
    ensures (a / n) * n == a
  {
  }

  lemma MulLess(a: real, b: real, n: real)
    requires a < b && n > 0.0
    ensures a * n < b * n
  {
    assert b * n - a * n == (b - a) * n;
  }
}

=== FILE: scene.dfy ===
/**
 * The records behind the 3D terrain view (visualize_3d.py): one marker per
 * hole where it meets a seam (`create_seam_points`), and one column per
 * drill-hole location from the surface down to its deepest seam bottom
 * (`create_drillhole_columns`).
 *
 * The location key rounds longitude and latitude to six decimals; the
 * rounding is a parameter `round`.
 */
module Scene {
  import opened Wrappers
  import opened Seqs
  import opened Dicts
  import opened Numbers
  import opened DrillHoles

  const DefaultExaggeration: real := 10.0

  // Marker radius bounds, and the radius when thickness is unknown or not positive.
  const MinMarkerSize: real := 50.0
  const MaxMarkerSize: real := 300.0
  const DefaultMarkerSize: real := 100.0
  const SizePerFoot: real := 50.0

  /** Columns shorter than this (after exaggeration) are not drawn. */
  const MinColumnHeight: real := 10.0

  /** `size`: 50 per foot of thickness, clamped to [50, 300]; 100 without a positive thickness. */
  function MarkerSize(thickness: Option<real>): (size: real)
    ensures MinMarkerSize <= size <= MaxMarkerSize
    ensures thickness.None? || thickness.value <= 0.0 ==> size == DefaultMarkerSize
    ensures thickness.Some? && 1.0 <= thickness.value <= 6.0 ==> size == thickness.value * SizePerFoot
    ensures thickness.Some? && 0.0 < thickness.value < 1.0 ==> size == MinMarkerSize
    ensures thickness.Some? && thickness.value > 6.0 ==> size == MaxMarkerSize
  {
    if thickness.Some? && thickness.value > 0.0 then
      var scaled := thickness.value * SizePerFoot;
      var capped := if scaled < MaxMarkerSize then scaled else MaxMarkerSize;
      if capped > MinMarkerSize then capped else MinMarkerSize
    else DefaultMarkerSize
  }

  /** One marker of a seam layer. `thickness` is 0 when absent. */
  datatype SeamPoint = SeamPoint(
    lon: real, lat: real, elevation: real, thickness: real, depth: real, seam: string, size: real)

  /** A hole is drawn on a seam layer when it has a depth and is not an outlier. */
  predicate Plotted(h: DrillHole) {
    h.depth.Some? && !h.IsOutlier()
  }

  /** The marker of a plotted hole: at the seam top, `surfelv - depth`, scaled by the exaggeration. */
  function PointOf(h: DrillHole, seam: Seam, exaggeration: real): SeamPoint
    requires h.depth.Some?
  {
    SeamPoint(h.lon, h.lat, (h.surfelv - h.depth.value) * exaggeration,
              h.thickness.GetOr(0.0), h.depth.value, seam.Name(), MarkerSize(h.thickness))
  }

  /** `data` holds the markers of `plotted`, one for one and in order. */
  ghost predicate MarkersOf(plotted: seq<DrillHole>, data: seq<SeamPoint>, seam: Seam, exaggeration: real) {
    && |plotted| == |data|
    && forall i :: 0 <= i < |data| ==> plotted[i].depth.Some? && data[i] == PointOf(plotted[i], seam, exaggeration)
  }

  /** Drawing one more hole extends both sides when it is plotted, and neither otherwise. */
  lemma MarkersStep(plotted: seq<DrillHole>, data: seq<SeamPoint>, seam: Seam, exaggeration: real, h: DrillHole)
    requires MarkersOf(plotted, data, seam, exaggeration)
    ensures Plotted(h) ==> MarkersOf(plotted + [h], data + [PointOf(h, seam, exaggeration)], seam, exaggeration)
  {
  }

  /**
   * `create_seam_points`: one marker per plotted hole, in input order. Every
   * marker's size is within [50, 300].
   */
  method CreateSeamPoints(holes: seq<DrillHole>, seam: Seam, exaggeration: real) returns (data: seq<SeamPoint>)
    ensures |data| == Count(holes, Plotted)
    ensures MarkersOf(Filter(holes, Plotted), data, seam, exaggeration)
    ensures forall p :: p in data ==> MinMarkerSize <= p.size <= MaxMarkerSize
  {
    data := [];
    var i := 0;
    while i < |holes|
      invariant i <= |holes|
      invariant MarkersOf(Filter(holes[..i], Plotted), data, seam, exaggeration)
    {
      var h := holes[i];
      FilterPrefix(holes, i, Plotted);
      if Plotted(h) {
        MarkersStep(Filter(holes[..i], Plotted), data, seam, exaggeration, h);
        data := data + [PointOf(h, seam, exaggeration)];
      }
      i := i + 1;
    }
    assert holes[..i] == holes;
    FilterCount(holes, Plotted);
  }

  /** The location key: longitude and latitude after rounding. */
  type Key = (real, real)

  function KeyOf(h: DrillHole, round: real -> real): Key {
    (round(h.lon), round(h.lat))
  }

  /** A seam met by a drill hole, as listed in its column's tooltip. */
  datatype SeamRecord = SeamRecord(name: string, depth: real, thickness: Option<real>)

  /** The accumulated record of one location. */
  datatype HoleInfo = HoleInfo(lon: real, lat: real, surfelv: real, minElev: real, seams: seq<SeamRecord>)

  /** The elevation of a seam's bottom under this hole; a missing thickness counts as 0. */
  function Bottom(h: DrillHole): real
    requires h.depth.Some?
  {
    h.surfelv - h.depth.value - h.thickness.GetOr(0.0)
  }

  /** The pairs `(seam, h)` for the holes of one seam, in order. */
  function Tag(seam: Seam, holes: seq<DrillHole>): (r: seq<(Seam, DrillHole)>)
    ensures forall h :: h in holes <==> (seam, h) in r
    ensures forall x :: x in r ==> x.0 == seam
  {
    if |holes| == 0 then []
    else
      var init := holes[..|holes| - 1];
      assert forall h :: h in holes <==> h in init || h == holes[|holes| - 1];
      Tag(seam, init) + [(seam, holes[|holes| - 1])]
  }

  /** Every (seam, hole) pair of `all_holes`, seam by seam in dictionary order. */
  function Flatten(allHoles: seq<(Seam, seq<DrillHole>)>): (r: seq<(Seam, DrillHole)>)
    ensures forall i, h :: 0 <= i < |allHoles| && h in allHoles[i].1 ==> (allHoles[i].0, h) in r
    ensures forall x :: x in r ==> exists i :: 0 <= i < |allHoles| && x.0 == allHoles[i].0 && x.1 in allHoles[i].1
  {
    if |allHoles| == 0 then []
    else
      var init := allHoles[..|allHoles| - 1];
      var last := allHoles[|allHoles| - 1];
      assert forall i :: 0 <= i < |init| ==> init[i] == allHoles[i];
      Flatten(init) + Tag(last.0, last.1)
  }

  /** The seam bottom a pair contributes: none without a depth. */
  function BottomPart(h: DrillHole): seq<real> {
    if h.depth.Some? then [Bottom(h)] else []
  }

  /** The seam record a pair contributes: none without a depth. */
  function RecordPart(seam: Seam, h: DrillHole): seq<SeamRecord> {
    if h.depth.Some? then [SeamRecord(seam.Name(), h.depth.value, h.thickness)] else []
  }

  /** The entry a location gets from the first hole seen there. */
  function Fresh(h: DrillHole): HoleInfo {
    HoleInfo(h.lon, h.lat, h.surfelv, h.surfelv, [])
  }

  /** Folding one more hole into a location's entry. */
  function Absorb(info: HoleInfo, seam: Seam, h: DrillHole): HoleInfo {
    if h.depth.Some? then
      var bottom := Bottom(h);
      info.(minElev := if bottom < info.minElev then bottom else info.minElev,
            seams := info.seams + RecordPart(seam, h))
    else info
  }

  /**
   * What one more hole does to a location's entry: the coordinates and
   * surface stay, `min_elev` drops to the seam bottom when that is lower,
   * and the seam is appended when the hole has a depth.
   */
  predicate Absorbs(before: HoleInfo, after: HoleInfo, seam: Seam, h: DrillHole) {
    && after.lon == before.lon && after.lat == before.lat && after.surfelv == before.surfelv
    && after.minElev <= before.minElev
    && (h.depth.Some? ==> after.minElev <= Bottom(h))
    && (after.minElev == before.minElev || (h.depth.Some? && after.minElev == Bottom(h)))
    && after.seams == before.seams + RecordPart(seam, h)
  }

  /**
   * The dictionary update for one (seam, hole) pair of the grouping loop: an
   * outlier changes nothing; otherwise only the hole's location changes, and
   * its entry (a fresh one at the hole itself when the location is new)
   * absorbs the hole.
   */
  function AddHole(acc: seq<(Key, HoleInfo)>, seam: Seam, h: DrillHole, round: real -> real): (r: seq<(Key, HoleInfo)>)
    ensures h.IsOutlier() ==> r == acc
    ensures forall k :: k != KeyOf(h, round) ==> Lookup(r, k) == Lookup(acc, k)
    ensures !h.IsOutlier() ==>
      && Lookup(r, KeyOf(h, round)).Some?
      && Absorbs(Lookup(acc, KeyOf(h, round)).GetOr(Fresh(h)), Lookup(r, KeyOf(h, round)).value, seam, h)
    ensures |r| <= |acc| + 1
  {
    if h.IsOutlier() then acc
    else
      var k := KeyOf(h, round);
      var prev := Lookup(acc, k);
      Put(acc, k, Absorb(if prev.Some? then prev.value else Fresh(h), seam, h))
  }

  /** `hole_data` after the grouping loop: at most one entry per pair, each at the location of some non-outlier hole. */
  function Group(items: seq<(Seam, DrillHole)>, round: real -> real): (r: seq<(Key, HoleInfo)>)
    ensures |r| <= |items|
    ensures forall k :: Lookup(r, k).Some? ==>
      exists j :: 0 <= j < |items| && !items[j].1.IsOutlier() && KeyOf(items[j].1, round) == k
  {
    if |items| == 0 then []
    else
      var init := items[..|items| - 1];
      var x := items[|items| - 1];
      assert forall j :: 0 <= j < |init| ==> init[j] == items[j];
      AddHole(Group(init, round), x.0, x.1, round)
  }

  /** The non-outlier pairs whose hole has key `k`, in order (reference for the grouping). */
  function Members(items: seq<(Seam, DrillHole)>, k: Key, round: real -> real): (r: seq<(Seam, DrillHole)>)
    ensures forall x :: x in r ==> x in items && !x.1.IsOutlier() && KeyOf(x.1, round) == k
  {
    if |items| == 0 then []
    else
      var x := items[|items| - 1];
      var init := Members(items[..|items| - 1], k, round);
      if !x.1.IsOutlier() && KeyOf(x.1, round) == k then init + [x] else init
  }

  /** The seam bottoms of the members that have a depth, in order. */
  function BottomsOf(ms: seq<(Seam, DrillHole)>): seq<real> {
    if |ms| == 0 then [] else BottomsOf(ms[..|ms| - 1]) + BottomPart(ms[|ms| - 1].1)
  }

  /** The seam records of the members that have a depth, in order. */
  function RecordsOf(ms: seq<(Seam, DrillHole)>): seq<SeamRecord> {
    if |ms| == 0 then [] else RecordsOf(ms[..|ms| - 1]) + RecordPart(ms[|ms| - 1].0, ms[|ms| - 1].1)
  }

  /** The entry the members of one location should produce. */
  ghost predicate Summarises(info: HoleInfo, ms: seq<(Seam, DrillHole)>)
    requires ms != []
  {
    var first := ms[0].1;
    && info.lon == first.lon && info.lat == first.lat && info.surfelv == first.surfelv
    && info.minElev == LowerTo(first.surfelv, BottomsOf(ms))
    && info.seams == RecordsOf(ms)
  }

  /** What the grouping promises for key `k`, stated through its members. */
  ghost predicate GroupedAs(acc: seq<(Key, HoleInfo)>, items: seq<(Seam, DrillHole)>, k: Key, round: real -> real) {
    var ms := Members(items, k, round);
    && (Lookup(acc, k).Some? <==> ms != [])
    && (ms != [] ==> Summarises(Lookup(acc, k).value, ms))
  }

  /** The first hole at a location gives the entry its coordinates and surface. */
  lemma AbsorbFirst(x: (Seam, DrillHole))
    ensures Summarises(Absorb(Fresh(x.1), x.0, x.1), [x])
  {
    assert [x][..0] == [];
  }

  /** A later hole lowers `min_elev` to its seam bottom and appends its seam. */
  lemma AbsorbNext(ms: seq<(Seam, DrillHole)>, x: (Seam, DrillHole), info: HoleInfo)
    requires ms != [] && Summarises(info, ms)
    ensures Summarises(Absorb(info, x.0, x.1), ms + [x])
  {
    var ms' := ms + [x];
    assert ms'[..|ms|] == ms && ms'[0] == ms[0];
    var bs := BottomsOf(ms);
    assert BottomsOf(ms') == bs + BottomPart(x.1);
    if x.1.depth.Some? {
      assert (bs + [Bottom(x.1)])[..|bs|] == bs;
    } else {
      assert bs + [] == bs;
    }
  }

  /** Grouping never lists a location twice. */
  lemma {:induction false} GroupUnique(items: seq<(Seam, DrillHole)>, round: real -> real)
    ensures UniqueKeys(Group(items, round))
    decreases |items|
  {
    if |items| > 0 {
      var x := items[|items| - 1];
      var acc := Group(items[..|items| - 1], round);
      GroupUnique(items[..|items| - 1], round);
      if !x.1.IsOutlier() {
        var k := KeyOf(x.1, round);
        var prev := Lookup(acc, k);
        PutUnique(acc, k, Absorb(if prev.Some? then prev.value else Fresh(x.1), x.0, x.1));
      }
    }
  }

  /**
   * The grouping, location by location: an entry exists exactly when some
   * non-outlier hole has that key; it holds the coordinates and surface
   * elevation of the first such hole, the lowest of that surface and every
   * seam bottom there, and the seams met there, in order.
   */
  lemma {:induction false} GroupLookup(items: seq<(Seam, DrillHole)>, round: real -> real, k: Key)
    ensures GroupedAs(Group(items, round), items, k, round)
    decreases |items|
  {
    if |items| > 0 {
      var init := items[..|items| - 1];
      var x := items[|items| - 1];
      var acc := Group(init, round);
      GroupLookup(init, round, k);
      var ms := Members(init, k, round);
      if !x.1.IsOutlier() && KeyOf(x.1, round) == k {
        var prev := Lookup(acc, k);
        assert Lookup(Group(items, round), k) == Some(Absorb(if prev.Some? then prev.value else Fresh(x.1), x.0, x.1));
        assert Members(items, k, round) == ms + [x];
        if ms == [] {
          AbsorbFirst(x);
          assert ms + [x] == [x];
        } else {
          AbsorbNext(ms, x, prev.value);
        }
      }
    }
  }

  /** One drawn column: from `min_elev` up to the surface, both scaled. */
  datatype Column = Column(lon: real, lat: real, elevation: real, height: real, seams: seq<string>, surfelv: real)

  function SeamNames(records: seq<SeamRecord>): (r: seq<string>)
    ensures |r| == |records|
    ensures forall i :: 0 <= i < |records| ==> r[i] == records[i].name
  {
    seq(|records|, i requires 0 <= i < |records| => records[i].name)
  }

  function ColumnHeight(info: HoleInfo, exaggeration: real): real {
    (info.surfelv - info.minElev) * exaggeration
  }

  function ColumnOf(info: HoleInfo, exaggeration: real): Column {
    Column(info.lon, info.lat, info.minElev * exaggeration, ColumnHeight(info, exaggeration),
           SeamNames(info.seams), info.surfelv)
  }

  predicate Drawn(exaggeration: real, entry: (Key, HoleInfo)) {
    ColumnHeight(entry.1, exaggeration) >= MinColumnHeight
  }

  /** The layer data: a column for each entry at least 10 high, in dictionary order. */
  function Columns(entries: seq<(Key, HoleInfo)>, exaggeration: real): (r: seq<Column>)
    ensures |r| <= |entries|
    ensures forall c :: c in r ==> c.height >= MinColumnHeight
    ensures forall c :: c in r ==> c.elevation + c.height == c.surfelv * exaggeration
    ensures forall e :: e in entries && Drawn(exaggeration, e) ==> ColumnOf(e.1, exaggeration) in r
    ensures forall c :: c in r ==> exists e :: e in entries && Drawn(exaggeration, e) && c == ColumnOf(e.1, exaggeration)
  {
    if |entries| == 0 then []
    else
      var init := entries[..|entries| - 1];
      var e := entries[|entries| - 1];
      assert forall x :: x in entries ==> x in init || x == e;
      assert forall x :: x in init ==> x in entries;
      Columns(init, exaggeration) + (if Drawn(exaggeration, e) then [ColumnOf(e.1, exaggeration)] else [])
  }

  /** Every entry of the grouping stands at a non-outlier hole, with that hole's surface elevation. */
  lemma EntryFromHole(items: seq<(Seam, DrillHole)>, round: real -> real, e: (Key, HoleInfo))
    requires e in Group(items, round)
    ensures exists x :: x in items && !x.1.IsOutlier() && e.1.lon == x.1.lon && e.1.lat == x.1.lat && e.1.surfelv == x.1.surfelv
  {
    GroupUnique(items, round);
    LookupUnique(Group(items, round), e);
    GroupLookup(items, round, e.0);
    var ms := Members(items, e.0, round);
    assert ms[0] in ms;
  }

  /**
   * `create_drillhole_columns` up to plotting: each column is at least 10
   * high, runs from the scaled `min_elev` up to the scaled surface, and
   * stands at a non-outlier hole of some seam with that hole's surface
   * elevation.
   */
  function DrillholeColumns(allHoles: seq<(Seam, seq<DrillHole>)>, round: real -> real, exaggeration: real): (r: seq<Column>)
    ensures forall c :: c in r ==> c.height >= MinColumnHeight && c.elevation + c.height == c.surfelv * exaggeration
    ensures forall c :: c in r ==>
      exists i, h :: 0 <= i < |allHoles| && h in allHoles[i].1 &&
        !h.IsOutlier() && c.lon == h.lon && c.lat == h.lat && c.surfelv == h.surfelv
  {
    var items := Flatten(allHoles);
    var acc := Group(items, round);
    var r := Columns(acc, exaggeration);
    forall c | c in r
      ensures exists i, h :: 0 <= i < |allHoles| && h in allHoles[i].1 &&
                !h.IsOutlier() && c.lon == h.lon && c.lat == h.lat && c.surfelv == h.surfelv
    {
      var e :| e in acc && Drawn(exaggeration, e) && c == ColumnOf(e.1, exaggeration);
      EntryFromHole(items, round, e);
      var x :| x in items && !x.1.IsOutlier() && e.1.lon == x.1.lon && e.1.lat == x.1.lat && e.1.surfelv == x.1.surfelv;
      var i :| 0 <= i < |allHoles| && x.0 == allHoles[i].0 && x.1 in allHoles[i].1;
    }
    r
  }

  /** An entry gets a column exactly when its exaggerated span is at least 10. */
  lemma ColumnDrawn(entries: seq<(Key, HoleInfo)>, exaggeration: real, e: (Key, HoleInfo))
    requires e in entries
    ensures Drawn(exaggeration, e) <==> ColumnOf(e.1, exaggeration) in Columns(entries, exaggeration)
  {
    var c := ColumnOf(e.1, exaggeration);
    if c in Columns(entries, exaggeration) {
      var e' :| e' in entries && Drawn(exaggeration, e') && c == ColumnOf(e'.1, exaggeration);
      assert c.height == ColumnHeight(e.1, exaggeration);
    }
  }

  /**
   * The column at a location: there is an entry exactly when some non-outlier
   * hole has that key; its `min_elev` is at or below the first-seen surface
   * elevation and every seam bottom there; and it is drawn exactly when that
   * span, exaggerated, is at least 10.
   */
  lemma ColumnAtKey(allHoles: seq<(Seam, seq<DrillHole>)>, round: real -> real, exaggeration: real, k: Key)
    ensures var items := Flatten(allHoles);
      var ms := Members(items, k, round);
      var acc := Group(items, round);
      && (Lookup(acc, k).Some? <==> ms != [])
      && (ms != [] ==>
           var info := Lookup(acc, k).value;
           && info.surfelv == ms[0].1.surfelv
           && info.minElev <= info.surfelv
           && (forall b :: b in BottomsOf(ms) ==> info.minElev <= b)
           && (ColumnHeight(info, exaggeration) >= MinColumnHeight <==>
                 ColumnOf(info, exaggeration) in DrillholeColumns(allHoles, round, exaggeration)))
  {
    var items := Flatten(allHoles);
    var acc := Group(items, round);
    GroupLookup(items, round, k);
    if Lookup(acc, k).Some? {
      var e := (k, Lookup(acc, k).value);
      ColumnDrawn(acc, exaggeration, e);
      assert DrillholeColumns(allHoles, round, exaggeration) == Columns(acc, exaggeration);
      assert Drawn(exaggeration, e) <==> ColumnOf(e.1, exaggeration) in Columns(acc, exaggeration);
    }
  }
}

=== FILE: seam_summary.dfy ===
/**
 * The per-seam statistics of summarize_coal_data.py (`summarize_major_coals`
 * and `summarize_minor_coals`). For each seam, the top and thickness columns
 * are located by pattern; every row whose cell parses contributes its value
 * to the overall list and to the list of its county. A row too short for one
 * of the located columns raises IndexError, which ends the summary.
 */
module SeamSummary {
  import opened Wrappers
  import opened Seqs
  import opened Dicts
  import opened Numbers
  import opened Fields
  import opened Tabular

  /** A seam's display name and the header patterns of its two columns. */
  datatype SeamSpec = SeamSpec(name: string, topPattern: string, thickPattern: string)

  const MajorSeams: seq<SeamSpec> := [
    SeamSpec("Danville", "top_danville", "thick_danville"),
    SeamSpec("Herrin", "top_herrin", "thick_herrin"),
    SeamSpec("Springfield", "top_spring", "thick_spring")
  ]

  const MinorSeams: seq<SeamSpec> := [
    SeamSpec("Jamestown", "top_jtown", "thick_jtown"),
    SeamSpec("Colchester", "top_colch", "thick_colch"),
    SeamSpec("Seelyville", "top_seely", "thick_seely"),
    SeamSpec("Dekoven", "top_dekoven", "thick_dekoven"),
    SeamSpec("Davis", "top_davis", "thick_davis")
  ]

  /** The county key of every row when the file has no county column. */
  const UnknownCounty: string := "Unknown"

  /** The county singled out in the report. */
  const FocusCounty: string := "CRAWFORD"

  /** The located columns of one seam; None where no header matched. */
  datatype Indices = Indices(county: Option<nat>, top: Option<nat>, thick: Option<nat>)

  function Locate(headers: seq<string>, spec: SeamSpec): Indices {
    Indices(FindColumn(headers, ["county"]), FindColumn(headers, [spec.topPattern]),
            FindColumn(headers, [spec.thickPattern]))
  }

  /** Indexing a located column past the end of the row raises IndexError. */
  predicate ShortFor(row: seq<string>, idx: Option<nat>) {
    idx.Some? && idx.value >= |row|
  }

  predicate Short(ix: Indices, row: seq<string>) {
    ShortFor(row, ix.county) || ShortFor(row, ix.top) || ShortFor(row, ix.thick)
  }

  /** The row's value in a column: None for a missing column, a short row, or a blank or unparsable cell. */
  function Value(parse: Parser, idx: Option<nat>, row: seq<string>): Option<real> {
    if idx.None? then None else ParseFloat(parse, Cell(row, idx.value))
  }

  /** The row's county key: the raw cell, or "Unknown" when there is no county column. */
  function CountyOf(idx: Option<nat>, row: seq<string>): string {
    if idx.None? then UnknownCounty else Cell(row, idx.value).GetOr("")
  }

  /** Some row is too short for a located column. */
  predicate AnyShort(ix: Indices, rows: seq<seq<string>>) {
    if |rows| == 0 then false else AnyShort(ix, rows[..|rows| - 1]) || Short(ix, rows[|rows| - 1])
  }

  lemma {:induction false} AnyShortIff(ix: Indices, rows: seq<seq<string>>)
    ensures AnyShort(ix, rows) <==> exists i :: 0 <= i < |rows| && Short(ix, rows[i])
  {
    if |rows| > 0 {
      var init := rows[..|rows| - 1];
      AnyShortIff(ix, init);
      assert forall i :: 0 <= i < |init| ==> init[i] == rows[i];
    }
  }

  /** A value list and a thickness list, as kept overall and per county. */
  datatype Lists = Lists(depths: seq<real>, thicks: seq<real>)

  function DepthCount(l: Lists): nat { |l.depths| }
  function ThickCount(l: Lists): nat { |l.thicks| }

  /** `by_county[c]`, a defaultdict: an absent county reads as two empty lists. */
  function Entry(byCounty: seq<(string, Lists)>, c: string): Lists {
    Lookup(byCounty, c).GetOr(Lists([], []))
  }

  datatype Tally = Tally(depths: seq<real>, thicks: seq<real>, byCounty: seq<(string, Lists)>)

  /** `depths.append(x)` and `by_county[c]['depths'].append(x)`. */
  function AddDepth(acc: Tally, c: string, x: real): Tally {
    var e := Entry(acc.byCounty, c);
    Tally(acc.depths + [x], acc.thicks, Put(acc.byCounty, c, e.(depths := e.depths + [x])))
  }

  /** `thicknesses.append(x)` and `by_county[c]['thicknesses'].append(x)`. */
  function AddThick(acc: Tally, c: string, x: real): Tally {
    var e := Entry(acc.byCounty, c);
    Tally(acc.depths, acc.thicks + [x], Put(acc.byCounty, c, e.(thicks := e.thicks + [x])))
  }

  /** One row of the loop, for a row long enough for every located column. */
  function Record(acc: Tally, parse: Parser, ix: Indices, row: seq<string>): Tally {
    var county := CountyOf(ix.county, row);
    var top := Value(parse, ix.top, row);
    var thick := Value(parse, ix.thick, row);
    var acc1 := if top.Some? then AddDepth(acc, county, top.value) else acc;
    if thick.Some? then AddThick(acc1, county, thick.value) else acc1
  }

  /** An optional value as a list of zero or one element. */
  function AsList(v: Option<real>): seq<real> {
    if v.Some? then [v.value] else []
  }

  /** The values of a column over the rows where it parses, in row order (reference for the loop). */
  function Values(rows: seq<seq<string>>, parse: Parser, idx: Option<nat>): (r: seq<real>)
    ensures |r| <= |rows|
  {
    if |rows| == 0 then []
    else Values(rows[..|rows| - 1], parse, idx) + AsList(Value(parse, idx, rows[|rows| - 1]))
  }

  /**
   * The row loop: None when some row is too short for a located column;
   * otherwise the overall lists are exactly the column's parsed values.
   */
  function Accumulate(rows: seq<seq<string>>, parse: Parser, ix: Indices): (r: Option<Tally>)
    ensures r.None? <==> AnyShort(ix, rows)
    ensures r.Some? ==> r.value.depths == Values(rows, parse, ix.top)
    ensures r.Some? ==> r.value.thicks == Values(rows, parse, ix.thick)
  {
    if |rows| == 0 then Some(Tally([], [], []))
    else
      var init := rows[..|rows| - 1];
      var row := rows[|rows| - 1];
      match Accumulate(init, parse, ix)
      case None => None
      case Some(acc) => if Short(ix, row) then None else Some(Record(acc, parse, ix, row))
  }

  /** The per-county lists add up to the overall lists, and no county is listed twice. */
  lemma {:induction false} AccumulatePartition(rows: seq<seq<string>>, parse: Parser, ix: Indices)
    requires Accumulate(rows, parse, ix).Some?
    ensures Partitioned(Accumulate(rows, parse, ix).value)
  {
    if |rows| > 0 {
      var init := rows[..|rows| - 1];
      var row := rows[|rows| - 1];
      AccumulatePartition(init, parse, ix);
      var acc := Accumulate(init, parse, ix).value;
      RecordPartition(acc, parse, ix, row);
    }
  }

  /** The counties partition the overall lists, and no county is listed twice. */
  ghost predicate Partitioned(t: Tally) {
    && UniqueKeys(t.byCounty)
    && SumBy(t.byCounty, DepthCount) == |t.depths|
    && SumBy(t.byCounty, ThickCount) == |t.thicks|
  }

  lemma AddDepthPartitioned(acc: Tally, c: string, x: real)
    requires Partitioned(acc)
    ensures Partitioned(AddDepth(acc, c, x))
  {
    var e := Entry(acc.byCounty, c);
    var e' := e.(depths := e.depths + [x]);
    PutUnique(acc.byCounty, c, e');
    PutSumBy(acc.byCounty, c, e', DepthCount);
    PutSumBy(acc.byCounty, c, e', ThickCount);
  }

  lemma AddThickPartitioned(acc: Tally, c: string, x: real)
    requires Partitioned(acc)
    ensures Partitioned(AddThick(acc, c, x))
  {
    var e := Entry(acc.byCounty, c);
    var e' := e.(thicks := e.thicks + [x]);
    PutUnique(acc.byCounty, c, e');
    PutSumBy(acc.byCounty, c, e', DepthCount);
    PutSumBy(acc.byCounty, c, e', ThickCount);
  }

  lemma RecordPartition(acc: Tally, parse: Parser, ix: Indices, row: seq<string>)
    requires Partitioned(acc)
    ensures Partitioned(Record(acc, parse, ix, row))
  {
    var county := CountyOf(ix.county, row);
    var top := Value(parse, ix.top, row);
    var thick := Value(parse, ix.thick, row);
    var acc1 := if top.Some? then AddDepth(acc, county, top.value) else acc;
    if top.Some? {
      AddDepthPartitioned(acc, county, top.value);
    }
    if thick.Some? {
      AddThickPartitioned(acc1, county, thick.value);
    }
  }

  /** The rows whose county key is `c`. */
  function InCounty(idx: Option<nat>, c: string): seq<string> -> bool {
    row => CountyOf(idx, row) == c
  }

  /** One row changes only its own county's entry, appending the values it parsed. */
  lemma RecordEntry(acc: Tally, parse: Parser, ix: Indices, row: seq<string>, c: string)
    ensures var t := Record(acc, parse, ix, row);
      var top := Value(parse, ix.top, row);
      var thick := Value(parse, ix.thick, row);
      var mine := CountyOf(ix.county, row) == c;
      var e := Entry(acc.byCounty, c);
      && Entry(t.byCounty, c) == (if mine then Lists(e.depths + AsList(top), e.thicks + AsList(thick)) else e)
      && (Lookup(t.byCounty, c).Some? <==> Lookup(acc.byCounty, c).Some? || (mine && (top.Some? || thick.Some?)))
  {
    var e := Entry(acc.byCounty, c);
    assert e.depths + [] == e.depths && e.thicks + [] == e.thicks;
  }

  /**
   * Each county's lists are the parsed values of that county's rows, in row
   * order; a county has an entry exactly when one of its rows contributed a
   * value (so `'CRAWFORD' in by_county` tests that).
   */
  lemma {:induction false} AccumulateByCounty(rows: seq<seq<string>>, parse: Parser, ix: Indices, c: string)
    requires Accumulate(rows, parse, ix).Some?
    ensures var t := Accumulate(rows, parse, ix).value;
      var mine := Filter(rows, InCounty(ix.county, c));
      && Entry(t.byCounty, c) == Lists(Values(mine, parse, ix.top), Values(mine, parse, ix.thick))
      && (Lookup(t.byCounty, c).Some? <==> |Values(mine, parse, ix.top)| + |Values(mine, parse, ix.thick)| > 0)
  {
    if |rows| > 0 {
      var init := rows[..|rows| - 1];
      var row := rows[|rows| - 1];
      AccumulateByCounty(init, parse, ix, c);
      var acc := Accumulate(init, parse, ix).value;
      assert Accumulate(rows, parse, ix).value == Record(acc, parse, ix, row);
      RecordEntry(acc, parse, ix, row, c);
      var mine := Filter(init, InCounty(ix.county, c));
      if CountyOf(ix.county, row) == c {
        assert Filter(rows, InCounty(ix.county, c)) == mine + [row];
        ValuesAppend(mine, row, parse, ix.top);
        ValuesAppend(mine, row, parse, ix.thick);
      } else {
        assert Filter(rows, InCounty(ix.county, c)) == mine;
      }
    }
  }

  lemma ValuesAppend(rows: seq<seq<string>>, row: seq<string>, parse: Parser, idx: Option<nat>)
    ensures Values(rows + [row], parse, idx) == Values(rows, parse, idx) + AsList(Value(parse, idx, row))
  {
    assert (rows + [row])[..|rows|] == rows;
  }

  /** The printed range and mean of a list. */
  datatype Range = Range(min: real, max: real, mean: real)

  /** None for an empty list (nothing is printed); otherwise min, max and the mean, which lies between them. */
  function Describe(xs: seq<real>): (r: Option<Range>)
    ensures r.None? <==> |xs| == 0
    ensures r.Some? ==> r.value.min in xs && r.value.max in xs
    ensures r.Some? ==> forall x :: x in xs ==> r.value.min <= x <= r.value.max
    ensures r.Some? ==> r.value.min <= r.value.mean <= r.value.max
  {
    if |xs| == 0 then None
    else
      MeanBetween(xs);
      Some(Range(MinOf(xs), MaxOf(xs), Sum(xs) / |xs| as real))
  }

  /** What is reported for one seam. `focus` is present when CRAWFORD has an entry. */
  datatype SeamReport = SeamReport(
    name: string, count: nat, depth: Option<Range>, thickCount: nat, thickness: Option<Range>,
    focus: Option<(Option<Range>, Option<Range>)>)

  function Report(name: string, t: Tally): SeamReport {
    var focus :=
      if Lookup(t.byCounty, FocusCounty).Some? then
        var l := Entry(t.byCounty, FocusCounty);
        Some((Describe(l.depths), Describe(l.thicks)))
      else None;
    SeamReport(name, |t.depths|, Describe(t.depths), |t.thicks|, Describe(t.thicks), focus)
  }

  /**
   * What one seam's report says, against the reference lists: the counts and
   * ranges are those of the column's parsed values, and the CRAWFORD part is
   * present exactly when one of that county's rows contributed a value, and
   * then describes that county's values.
   */
  lemma ReportOfSeam(headers: seq<string>, rows: seq<seq<string>>, spec: SeamSpec, parse: Parser)
    requires Accumulate(rows, parse, Locate(headers, spec)).Some?
    ensures var ix := Locate(headers, spec);
      var rep := Report(spec.name, Accumulate(rows, parse, ix).value);
      var mine := Filter(rows, InCounty(ix.county, FocusCounty));
      && rep.count == |Values(rows, parse, ix.top)|
      && rep.thickCount == |Values(rows, parse, ix.thick)|
      && rep.depth == Describe(Values(rows, parse, ix.top))
      && rep.thickness == Describe(Values(rows, parse, ix.thick))
      && (rep.focus.Some? <==> |Values(mine, parse, ix.top)| + |Values(mine, parse, ix.thick)| > 0)
      && (rep.focus.Some? ==>
            rep.focus.value == (Describe(Values(mine, parse, ix.top)), Describe(Values(mine, parse, ix.thick))))
  {
    AccumulateByCounty(rows, parse, Locate(headers, spec), FocusCounty);
  }

  /** The minor-coal summary prints a seam only when it has some value. */
  predicate Reported(r: SeamReport) {
    r.count > 0 || r.thickCount > 0
  }

  /** One report per seam, in order; None when a row is too short for some seam's columns. */
  function Summarize(headers: seq<string>, rows: seq<seq<string>>, seams: seq<SeamSpec>, parse: Parser): (r: Option<seq<SeamReport>>)
    ensures r.None? <==> exists i :: 0 <= i < |seams| && Accumulate(rows, parse, Locate(headers, seams[i])).None?
    ensures r.Some? ==> |r.value| == |seams|
    ensures r.Some? ==> forall i :: 0 <= i < |seams| ==>
      var t := Accumulate(rows, parse, Locate(headers, seams[i]));
      t.Some? && r.value[i] == Report(seams[i].name, t.value)
  {
    var tallies := seq(|seams|, i requires 0 <= i < |seams| => Accumulate(rows, parse, Locate(headers, seams[i])));
    if exists i :: 0 <= i < |seams| && tallies[i].None? then None
    else Some(seq(|seams|, i requires 0 <= i < |seams| => Report(seams[i].name, tallies[i].value)))
  }
}

=== FILE: seqs.dfy ===
/** Sequence facts shared by the filters, joins and sorts of the model. */
module Seqs {

  /** `a` can be obtained from `b` by deleting elements (order preserved). */
  ghost predicate IsSubseq<T>(a: seq<T>, b: seq<T>)
    decreases |b|
  {
    |a| == 0 ||
    (|b| > 0 &&
      ((a[|a| - 1] == b[|b| - 1] && IsSubseq(a[..|a| - 1], b[..|b| - 1])) ||
       IsSubseq(a, b[..|b| - 1])))
  }

  /** The elements of `s` that satisfy `p`, in their original order. */
  function Filter<T>(s: seq<T>, p: T -> bool): (r: seq<T>)
    ensures |r| <= |s|
    ensures forall x :: x in r ==> x in s && p(x)
  {
    if |s| == 0 then []
    else Filter(s[..|s| - 1], p) + (if p(s[|s| - 1]) then [s[|s| - 1]] else [])
  }

  /** How many elements of `s` satisfy `p`. */
  function Count<T>(s: seq<T>, p: T -> bool): (n: nat)
    ensures n <= |s|
  {
    if |s| == 0 then 0
    else Count(s[..|s| - 1], p) + (if p(s[|s| - 1]) then 1 else 0)
  }

  /** `s` read back to front (Python's `s[::-1]`). */
  function Reverse<T>(s: seq<T>): (r: seq<T>)
    ensures |r| == |s|
    ensures forall i :: 0 <= i < |s| ==> r[i] == s[|s| - 1 - i]
  {
    if |s| == 0 then [] else [s[|s| - 1]] + Reverse(s[..|s| - 1])
  }

  /** Position `i` of `a + Reverse(c)`, counted from the front and from the back. */
  lemma MirrorAt<T>(a: seq<T>, c: seq<T>, i: nat)
    requires |a| == |c| && i < |a|
    ensures (a + Reverse(c))[i] == a[i]
    ensures (a + Reverse(c))[2 * |a| - 1 - i] == c[i]
  {
    assert (a + Reverse(c))[2 * |a| - 1 - i] == Reverse(c)[|a| - 1 - i];
  }

  lemma {:induction false} FilterAppend<T>(s: seq<T>, x: T, p: T -> bool)
    ensures Filter(s + [x], p) == Filter(s, p) + (if p(x) then [x] else [])
  {
    assert (s + [x])[..|s|] == s;
  }

  lemma {:induction false} CountAppend<T>(s: seq<T>, x: T, p: T -> bool)
    ensures Count(s + [x], p) == Count(s, p) + (if p(x) then 1 else 0)
  {
    assert (s + [x])[..|s|] == s;
  }

  /** A filter is an order-preserving subsequence of its input. */
  lemma {:induction false} FilterIsSubseq<T>(s: seq<T>, p: T -> bool)
    ensures IsSubseq(Filter(s, p), s)
    decreases |s|
  {
    if |s| > 0 {
      var init := s[..|s| - 1];
      FilterIsSubseq(init, p);
      if p(s[|s| - 1]) {
        var f := Filter(s, p);
        assert f == Filter(init, p) + [s[|s| - 1]];
        assert f[..|f| - 1] == Filter(init, p);
      } else {
        assert Filter(s, p) == Filter(init, p);
      }
    }
  }

  /** The filter keeps every element that satisfies `p` as often as it occurs, and no other. */
  lemma {:induction false} FilterMultiplicity<T>(s: seq<T>, p: T -> bool, x: T)
    ensures multiset(Filter(s, p))[x] == if p(x) then multiset(s)[x] else 0
    decreases |s|
  {
    if |s| > 0 {
      var init := s[..|s| - 1];
      FilterMultiplicity(init, p, x);
      assert s == init + [s[|s| - 1]];
    }
  }

  /** Filtering one more element of a prefix. */
  lemma FilterPrefix<T>(s: seq<T>, i: nat, p: T -> bool)
    requires i < |s|
    ensures Filter(s[..i + 1], p) == Filter(s[..i], p) + (if p(s[i]) then [s[i]] else [])
  {
    assert s[..i + 1] == s[..i] + [s[i]];
    FilterAppend(s[..i], s[i], p);
  }

  /** The filter has exactly as many elements as `p` accepts. */
  lemma {:induction false} FilterCount<T>(s: seq<T>, p: T -> bool)
    ensures |Filter(s, p)| == Count(s, p)
    decreases |s|
  {
    if |s| > 0 {
      FilterCount(s[..|s| - 1], p);
    }
  }

  /** A filter whose predicate accepts everything is the identity. */
  lemma {:induction false} FilterAll<T>(s: seq<T>, p: T -> bool)
    requires forall x :: x in s ==> p(x)
    ensures Filter(s, p) == s
    decreases |s|
  {
    if |s| > 0 {
      var init := s[..|s| - 1];
      assert s == init + [s[|s| - 1]];
      FilterAll(init, p);
      FilterAppend(init, s[|s| - 1], p);
    }
  }

  /** Subsequence is transitive-friendly: extending the longer side keeps it. */
  lemma {:induction false} SubseqAppendRight<T>(a: seq<T>, b: seq<T>, x: T)
    requires IsSubseq(a, b)
    ensures IsSubseq(a, b + [x])
  {
    assert (b + [x])[..|b|] == b;
  }

  lemma {:induction false} SubseqAppendBoth<T>(a: seq<T>, b: seq<T>, x: T)
    requires IsSubseq(a, b)
    ensures IsSubseq(a + [x], b + [x])
  {
    assert (b + [x])[..|b|] == b;
    assert (a + [x])[..|a|] == a;
  }

  /** A subsequence as long as its source is the source itself. */
  lemma {:induction false} SubseqSameLength<T>(a: seq<T>, b: seq<T>)
    requires IsSubseq(a, b)
    requires |a| == |b|
    ensures a == b
    decreases |b|
  {
    if |a| > 0 {
      SubseqLength(a, b[..|b| - 1]);
      if a[|a| - 1] == b[|b| - 1] && IsSubseq(a[..|a| - 1], b[..|b| - 1]) {
        SubseqSameLength(a[..|a| - 1], b[..|b| - 1]);
        assert a == a[..|a| - 1] + [a[|a| - 1]];
        assert b == b[..|b| - 1] + [b[|b| - 1]];
      } else {
        assert false;
      }
    }
  }

  /** A subsequence is never longer than its source. */
  lemma {:induction false} SubseqLength<T>(a: seq<T>, b: seq<T>)
    ensures IsSubseq(a, b) ==> |a| <= |b|
    decreases |b|
  {
    if |a| > 0 && |b| > 0 {
      SubseqLength(a[..|a| - 1], b[..|b| - 1]);
      SubseqLength(a, b[..|b| - 1]);
    }
  }

  /** Every element of a subsequence occurs in the source. */
  lemma {:induction false} SubseqMembers<T>(a: seq<T>, b: seq<T>)
    requires IsSubseq(a, b)
    ensures forall x :: x in a ==> x in b
    decreases |b|
  {
    if |a| > 0 {
      if a[|a| - 1] == b[|b| - 1] && IsSubseq(a[..|a| - 1], b[..|b| - 1]) {
        SubseqMembers(a[..|a| - 1], b[..|b| - 1]);
        assert a == a[..|a| - 1] + [a[|a| - 1]];
      } else {
        SubseqMembers(a, b[..|b| - 1]);
      }
    }
  }
}

=== FILE: sorting.dfy ===
/**
 * Stable sorting as Python's `sorted` performs it. `sorted` compares with `<`
 * only and keeps equal elements in input order; the model is an insertion
 * sort over a "goes strictly before" relation `lt`, and its contract pins the
 * output down completely: sorted, a permutation, and stable.
 */
module Sorting {

  /** `lt` is a strict weak order: asymmetric, and "not before" is transitive. */
  ghost predicate StrictWeakOrder<T(!new)>(lt: (T, T) -> bool) {
    && (forall a, b :: lt(a, b) ==> !lt(b, a))
    && (forall a, b, c :: !lt(a, b) && !lt(b, c) ==> !lt(a, c))
  }

  /** Neither goes before the other: `lt` cannot tell them apart. */
  predicate Equiv<T>(lt: (T, T) -> bool, a: T, b: T) {
    !lt(a, b) && !lt(b, a)
  }

  /** No later element goes strictly before an earlier one. */
  ghost predicate Sorted<T>(s: seq<T>, lt: (T, T) -> bool) {
    forall i, j :: 0 <= i < j < |s| ==> !lt(s[j], s[i])
  }

  /** The elements of `s` equivalent to `y`, in their order in `s`. */
  function Class<T>(s: seq<T>, lt: (T, T) -> bool, y: T): seq<T> {
    if |s| == 0 then []
    else Class(s[..|s| - 1], lt, y) + (if Equiv(lt, s[|s| - 1], y) then [s[|s| - 1]] else [])
  }

  /** Places `x` after every element of `t` that `x` does not go before. */
  function Insert<T>(t: seq<T>, x: T, lt: (T, T) -> bool): (r: seq<T>)
    ensures |r| == |t| + 1
  {
    if |t| == 0 || !lt(x, t[|t| - 1]) then t + [x]
    else Insert(t[..|t| - 1], x, lt) + [t[|t| - 1]]
  }

  function Sort<T>(s: seq<T>, lt: (T, T) -> bool): (r: seq<T>)
    ensures |r| == |s|
  {
    if |s| == 0 then [] else Insert(Sort(s[..|s| - 1], lt), s[|s| - 1], lt)
  }

  lemma {:induction false} ClassAppend<T>(s: seq<T>, x: T, lt: (T, T) -> bool, y: T)
    ensures Class(s + [x], lt, y) == Class(s, lt, y) + (if Equiv(lt, x, y) then [x] else [])
  {
    assert (s + [x])[..|s|] == s;
  }

  lemma {:induction false} InsertPermutes<T>(t: seq<T>, x: T, lt: (T, T) -> bool)
    ensures multiset(Insert(t, x, lt)) == multiset(t) + multiset{x}
    decreases |t|
  {
    if |t| > 0 && lt(x, t[|t| - 1]) {
      InsertPermutes(t[..|t| - 1], x, lt);
      assert t == t[..|t| - 1] + [t[|t| - 1]];
    }
  }

  lemma {:induction false} InsertSorted<T(!new)>(t: seq<T>, x: T, lt: (T, T) -> bool)
    requires StrictWeakOrder(lt)
    requires Sorted(t, lt)
    ensures Sorted(Insert(t, x, lt), lt)
    decreases |t|
  {
    if |t| > 0 && lt(x, t[|t| - 1]) {
      var init, last := t[..|t| - 1], t[|t| - 1];
      InsertSorted(init, x, lt);
      InsertPermutes(init, x, lt);
      var u := Insert(init, x, lt);
      forall i | 0 <= i < |u|
        ensures !lt(last, u[i])
      {
        assert u[i] in multiset(u);
        if u[i] != x {
          assert u[i] in multiset(init);
          var k :| 0 <= k < |init| && init[k] == u[i];
          assert t[k] == u[i];
        }
      }
    }
  }

  /** Inserting `x` appends it to the end of its own equivalence class. */
  lemma {:induction false} InsertStable<T(!new)>(t: seq<T>, x: T, lt: (T, T) -> bool, y: T)
    requires StrictWeakOrder(lt)
    ensures Class(Insert(t, x, lt), lt, y) == Class(t, lt, y) + (if Equiv(lt, x, y) then [x] else [])
    decreases |t|
  {
    if |t| == 0 || !lt(x, t[|t| - 1]) {
      ClassAppend(t, x, lt, y);
    } else {
      var init, last := t[..|t| - 1], t[|t| - 1];
      InsertStable(init, x, lt, y);
      ClassAppend(Insert(init, x, lt), last, lt, y);
      ClassAppend(init, last, lt, y);
      assert t == init + [last];
      assert !(Equiv(lt, x, y) && Equiv(lt, last, y));
    }
  }

  /** The sort is a permutation of its input. */
  lemma {:induction false} SortPermutes<T>(s: seq<T>, lt: (T, T) -> bool)
    ensures multiset(Sort(s, lt)) == multiset(s)
    decreases |s|
  {
    if |s| > 0 {
      SortPermutes(s[..|s| - 1], lt);
      InsertPermutes(Sort(s[..|s| - 1], lt), s[|s| - 1], lt);
      assert s == s[..|s| - 1] + [s[|s| - 1]];
    }
  }

  /** The sort's output is ordered by `lt`. */
  lemma {:induction false} SortSorted<T(!new)>(s: seq<T>, lt: (T, T) -> bool)
    requires StrictWeakOrder(lt)
    ensures Sorted(Sort(s, lt), lt)
    decreases |s|
  {
    if |s| > 0 {
      SortSorted(s[..|s| - 1], lt);
      InsertSorted(Sort(s[..|s| - 1], lt), s[|s| - 1], lt);
    }
  }

  /** The sort is stable: elements `lt` cannot tell apart keep their input order. */
  lemma {:induction false} SortStable<T(!new)>(s: seq<T>, lt: (T, T) -> bool, y: T)
    requires StrictWeakOrder(lt)
    ensures Class(Sort(s, lt), lt, y) == Class(s, lt, y)
    decreases |s|
  {
    if |s| > 0 {
      var init := s[..|s| - 1];
      SortStable(init, lt, y);
      InsertStable(Sort(init, lt), s[|s| - 1], lt, y);
      ClassAppend(init, s[|s| - 1], lt, y);
      assert s == init + [s[|s| - 1]];
    }
  }

  /** Membership is unchanged by sorting. */
  lemma SortMembers<T>(s: seq<T>, lt: (T, T) -> bool)
    ensures forall x :: x in Sort(s, lt) <==> x in s
  {
    SortPermutes(s, lt);
    forall x ensures x in Sort(s, lt) <==> x in s {
      assert x in Sort(s, lt) <==> x in multiset(Sort(s, lt));
      assert x in s <==> x in multiset(s);
    }
  }
}

=== FILE: study_area.dfy ===
/**
 * `filter_csv` of filter_study_area.py: keep the rows of the study area.
 * When the file has a county column, a row is kept exactly when its county,
 * upper-cased and stripped, is a study county; only a file without a county
 * column falls back to the coordinate box. Rows are `csv.reader` rows.
 */
module StudyArea {
  import opened Wrappers
  import opened Seqs
  import opened Dicts
  import opened Text
  import opened Fields
  import opened Tabular

  const StudyCounties: set<string> := {"CRAWFORD", "CLARK", "LAWRENCE", "JASPER", "CUMBERLAND", "RICHLAND"}

  // The box of this script; its western edge differs from the loader's.
  const MinLat: real := 38.5
  const MaxLat: real := 39.6
  const MinLon: real := -88.3
  const MaxLon: real := -87.3

  /** The located columns. */
  datatype Columns = Columns(county: Option<nat>, lat: Option<nat>, lon: Option<nat>)

  /**
   * The first header naming each column, by the case-insensitive substring
   * test; "latitude" and "longitude" add nothing to their abbreviations.
   */
  function LocateColumns(headers: seq<string>): (r: Columns)
    ensures r.county.Some? ==> r.county.value < |headers| && Contains(Lower(headers[r.county.value]), "county")
    ensures r.county.Some? ==> forall j :: 0 <= j < r.county.value ==> !Contains(Lower(headers[j]), "county")
    ensures r.county.None? <==> forall j :: 0 <= j < |headers| ==> !Contains(Lower(headers[j]), "county")
    ensures r.lat.Some? ==> r.lat.value < |headers| && Contains(Lower(headers[r.lat.value]), "lat")
    ensures r.lat.Some? ==> forall j :: 0 <= j < r.lat.value ==> !Contains(Lower(headers[j]), "lat")
    ensures r.lat.None? <==> forall j :: 0 <= j < |headers| ==> !Contains(Lower(headers[j]), "lat")
    ensures r.lon.Some? ==> r.lon.value < |headers| && Contains(Lower(headers[r.lon.value]), "lon")
    ensures r.lon.Some? ==> forall j :: 0 <= j < r.lon.value ==> !Contains(Lower(headers[j]), "lon")
    ensures r.lon.None? <==> forall j :: 0 <= j < |headers| ==> !Contains(Lower(headers[j]), "lon")
  {
    forall h: string ensures MatchesAny(h, ["latitude", "lat"]) <==> Contains(Lower(h), "lat") {
      MatchesWordOrAbbreviation(h, "latitude", "lat");
    }
    forall h: string ensures MatchesAny(h, ["longitude", "lon"]) <==> Contains(Lower(h), "lon") {
      MatchesWordOrAbbreviation(h, "longitude", "lon");
    }
    Columns(FindColumn(headers, ["county"]), FindColumn(headers, ["latitude", "lat"]),
            FindColumn(headers, ["longitude", "lon"]))
  }

  /** The fate of one row: kept (with the county it was counted under, if any), dropped, or an uncaught IndexError. */
  datatype Verdict = Kept(county: Option<string>) | Dropped | Raises

  predicate InBox(lat: real, lon: real) {
    MinLat <= lat <= MaxLat && MinLon <= lon <= MaxLon
  }

  /** `float(row[idx])`: None where indexing or parsing raises. */
  function Coordinate(parse: Parser, row: seq<string>, idx: nat): (r: Option<real>)
    ensures idx >= |row| ==> r.None?
    ensures idx < |row| ==> r == parse(row[idx])
  {
    match Cell(row, idx)
    case None => None
    case Some(text) => parse(text)
  }

  /** The row is too short for the county column: `row[county_idx]` raises IndexError. */
  predicate TooShort(cols: Columns, row: seq<string>) {
    cols.county.Some? && cols.county.value >= |row|
  }

  /** The county test on a normalised county name. */
  function ByCounty(c: string): (v: Verdict)
    ensures v.Kept? <==> c in StudyCounties
    ensures v.Kept? ==> v.county == Some(c)
    ensures !v.Raises?
  {
    if c in StudyCounties then Kept(Some(c)) else Dropped
  }

  /** Some row is too short for the county column. */
  predicate AnyShort(cols: Columns, rows: seq<seq<string>>) {
    if |rows| == 0 then false
    else AnyShort(cols, rows[..|rows| - 1]) || TooShort(cols, rows[|rows| - 1])
  }

  lemma {:induction false} AnyShortIff(cols: Columns, rows: seq<seq<string>>)
    ensures AnyShort(cols, rows) <==> exists i :: 0 <= i < |rows| && TooShort(cols, rows[i])
  {
    if |rows| > 0 {
      var init := rows[..|rows| - 1];
      AnyShortIff(cols, init);
      assert forall i :: 0 <= i < |init| ==> init[i] == rows[i];
    }
  }

  /** The keep rule for one row. */
  function Decide(cols: Columns, parse: Parser, row: seq<string>): (v: Verdict)
    ensures v.Raises? <==> TooShort(cols, row)
    ensures cols.county.Some? && cols.county.value < |row| ==>
      v == ByCounty(Strip(Upper(row[cols.county.value])))
    ensures cols.county.None? ==>
      (v.Kept? <==> (cols.lat.Some? && cols.lon.Some? &&
         var lat := Coordinate(parse, row, cols.lat.value);
         var lon := Coordinate(parse, row, cols.lon.value);
         lat.Some? && lon.Some? && InBox(lat.value, lon.value)))
    ensures v.Kept? ==> (v.county.Some? <==> cols.county.Some?)
  {
    if cols.county.Some? then
      if cols.county.value < |row| then
        ByCounty(Strip(Upper(row[cols.county.value])))
      else Raises
    else if cols.lat.Some? && cols.lon.Some? then
      match Coordinate(parse, row, cols.lat.value)
      case None => Dropped
      case Some(lat) =>
        match Coordinate(parse, row, cols.lon.value)
        case None => Dropped
        case Some(lon) => if InBox(lat, lon) then Kept(None) else Dropped
    else Dropped
  }

  /** The keep rule as a predicate on rows. */
  function Keeps(cols: Columns, parse: Parser): seq<string> -> bool {
    row => Decide(cols, parse, row).Kept?
  }

  /** What `filter_csv` produces: the file written and the counts it reports. */
  datatype Outcome = Outcome(output: seq<seq<string>>, kept: seq<seq<string>>, countyCounts: seq<(string, nat)>, total: nat)

  function CountOf(n: nat): nat { n }

  /** County counts that are well formed: one entry per study county met, adding up to `n`. */
  ghost predicate CountsTo(counts: seq<(string, nat)>, n: nat) {
    && UniqueKeys(counts)
    && SumBy(counts, CountOf) == n
    && (forall e :: e in counts ==> e.0 in StudyCounties)
  }

  /** The rows `county_counts[c] += 1` counts under `c`: the county cell, upper-cased and stripped, is `c`. */
  function NamedAs(cols: Columns, c: string): seq<string> -> bool {
    row => cols.county.Some? && cols.county.value < |row| && Strip(Upper(row[cols.county.value])) == c
  }

  /** Each county's count is the number of kept rows naming that county (0 for a county never met). */
  ghost predicate CountsPerCounty(counts: seq<(string, nat)>, kept: seq<seq<string>>, cols: Columns) {
    forall c :: Lookup(counts, c).GetOr(0) == Count(kept, NamedAs(cols, c))
  }

  /** `county_counts[c] += 1` on a defaultdict(int). */
  function Bump(counts: seq<(string, nat)>, c: string): seq<(string, nat)> {
    Put(counts, c, Lookup(counts, c).GetOr(0) + 1)
  }

  /**
   * The row loop of `filter_csv` for located columns `cols`: None when a row
   * is too short for the county column (the IndexError is not caught);
   * otherwise the kept rows are exactly the rows the keep rule accepts, in
   * input order, the output is the header row followed by them, the county
   * counts add up to the kept rows when a county column exists (and stay
   * empty otherwise), each county's count is the number of kept rows naming
   * it, and the returned count is at most the number of rows
   * read.
   */
  method FilterRows(headers: seq<string>, cols: Columns, rows: seq<seq<string>>, parse: Parser) returns (r: Option<Outcome>)
    ensures r.None? <==> AnyShort(cols, rows)
    ensures r.Some? ==>
      && r.value.kept == Filter(rows, Keeps(cols, parse))
      && r.value.output == [headers] + r.value.kept
      && r.value.total == |rows|
      && |r.value.kept| <= r.value.total
      && CountsTo(r.value.countyCounts, if cols.county.Some? then |r.value.kept| else 0)
      && (cols.county.None? ==> r.value.countyCounts == [])
      && CountsPerCounty(r.value.countyCounts, r.value.kept, cols)
  {
    var kept: seq<seq<string>> := [];
    var counts: seq<(string, nat)> := [];
    var total: nat := 0;
    while total < |rows|
      invariant total <= |rows|
      invariant !AnyShort(cols, rows[..total])
      invariant kept == Filter(rows[..total], Keeps(cols, parse))
      invariant CountsTo(counts, if cols.county.Some? then |kept| else 0)
      invariant cols.county.None? ==> counts == []
      invariant CountsPerCounty(counts, kept, cols)
    {
      if TooShort(cols, rows[total]) {
        assert AnyShort(cols, rows) by {
          PrefixStep(cols, parse, rows, total);
          ShortPrefix(cols, rows, total + 1);
        }
        return None;
      }
      kept, counts := Advance(cols, parse, rows, total, kept, counts);
      total := total + 1;
    }
    assert rows[..total] == rows;
    r := Some(Outcome([headers] + kept, kept, counts, total));
  }

  /** The row loop's step: reading row `n` extends the kept rows and the counts to the prefix of length n + 1. */
  method Advance(cols: Columns, parse: Parser, rows: seq<seq<string>>, n: nat, kept: seq<seq<string>>, counts: seq<(string, nat)>)
    returns (kept': seq<seq<string>>, counts': seq<(string, nat)>)
    requires n < |rows| && !TooShort(cols, rows[n]) && !AnyShort(cols, rows[..n])
    requires kept == Filter(rows[..n], Keeps(cols, parse))
    requires CountsTo(counts, if cols.county.Some? then |kept| else 0)
    requires CountsPerCounty(counts, kept, cols)
    ensures !AnyShort(cols, rows[..n + 1])
    ensures kept' == Filter(rows[..n + 1], Keeps(cols, parse))
    ensures CountsTo(counts', if cols.county.Some? then |kept'| else 0)
    ensures cols.county.None? ==> counts' == counts
    ensures CountsPerCounty(counts', kept', cols)
  {
    PrefixStep(cols, parse, rows, n);
    kept', counts' := KeepRow(cols, parse, rows[n], kept, counts, if cols.county.Some? then |kept| else 0);
    CountStep(cols, parse, rows[n], kept, counts, counts');
  }

  /** Counting one row under its own county keeps each county's count equal to the kept rows naming it. */
  lemma CountStep(cols: Columns, parse: Parser, row: seq<string>, kept: seq<seq<string>>, counts: seq<(string, nat)>, counts': seq<(string, nat)>)
    requires CountsPerCounty(counts, kept, cols)
    requires forall c :: Lookup(counts', c).GetOr(0)
                      == Lookup(counts, c).GetOr(0) + (if Keeps(cols, parse)(row) && NamedAs(cols, c)(row) then 1 else 0)
    ensures CountsPerCounty(counts', kept + (if Keeps(cols, parse)(row) then [row] else []), cols)
  {
    var kept' := kept + (if Keeps(cols, parse)(row) then [row] else []);
    forall c ensures Lookup(counts', c).GetOr(0) == Count(kept', NamedAs(cols, c)) {
      assert Lookup(counts, c).GetOr(0) == Count(kept, NamedAs(cols, c));
      if Keeps(cols, parse)(row) {
        CountAppend(kept, row, NamedAs(cols, c));
      } else {
        assert kept' == kept;
      }
    }
  }

  /** Extending the prefix read so far by one row. */
  lemma PrefixStep(cols: Columns, parse: Parser, rows: seq<seq<string>>, n: nat)
    requires n < |rows|
    ensures AnyShort(cols, rows[..n + 1]) == (AnyShort(cols, rows[..n]) || TooShort(cols, rows[n]))
    ensures Filter(rows[..n + 1], Keeps(cols, parse))
         == Filter(rows[..n], Keeps(cols, parse)) + (if Keeps(cols, parse)(rows[n]) then [rows[n]] else [])
  {
    assert rows[..n + 1][..n] == rows[..n];
  }

  /** A short row in a prefix is a short row of the whole file. */
  lemma ShortPrefix(cols: Columns, rows: seq<seq<string>>, n: nat)
    requires n <= |rows| && AnyShort(cols, rows[..n])
    ensures AnyShort(cols, rows)
  {
    AnyShortIff(cols, rows[..n]);
    AnyShortIff(cols, rows);
    var i :| 0 <= i < n && TooShort(cols, rows[..n][i]);
    assert rows[i] == rows[..n][i];
  }

  /** One pass of the row loop, for a row long enough for the county column. */
  method KeepRow(cols: Columns, parse: Parser, row: seq<string>, kept: seq<seq<string>>, counts: seq<(string, nat)>, ghost n: nat)
    returns (kept': seq<seq<string>>, counts': seq<(string, nat)>)
    requires !TooShort(cols, row)
    requires CountsTo(counts, n)
    ensures kept' == kept + (if Keeps(cols, parse)(row) then [row] else [])
    ensures CountsTo(counts', n + (if cols.county.Some? && Keeps(cols, parse)(row) then 1 else 0))
    ensures cols.county.None? ==> counts' == counts
    ensures forall c :: Lookup(counts', c).GetOr(0)
                     == Lookup(counts, c).GetOr(0) + (if Keeps(cols, parse)(row) && NamedAs(cols, c)(row) then 1 else 0)
  {
    kept', counts' := kept, counts;
    var v := Decide(cols, parse, row);
    if v.Kept? {
      if v.county.Some? {
        BumpCounts(counts, v.county.value, n);
        counts' := Bump(counts, v.county.value);
      }
      kept' := kept + [row];
    }
  }

  /** `filter_csv` up to reading and writing: locate the columns, then run the row loop. */
  method FilterCsv(headers: seq<string>, rows: seq<seq<string>>, parse: Parser) returns (r: Option<Outcome>)
    ensures r.None? <==> exists i :: 0 <= i < |rows| && TooShort(LocateColumns(headers), rows[i])
    ensures r.Some? ==> r.value.kept == Filter(rows, Keeps(LocateColumns(headers), parse))
    ensures r.Some? ==> r.value.output == [headers] + r.value.kept && |r.value.kept| <= r.value.total == |rows|
    ensures r.Some? ==> CountsTo(r.value.countyCounts, if LocateColumns(headers).county.Some? then |r.value.kept| else 0)
    ensures r.Some? && LocateColumns(headers).county.None? ==> r.value.countyCounts == []
    ensures r.Some? ==> CountsPerCounty(r.value.countyCounts, r.value.kept, LocateColumns(headers))
  {
    r := FilterRows(headers, LocateColumns(headers), rows, parse);
    AnyShortIff(LocateColumns(headers), rows);
  }

  /** Counting one more study county keeps the counts well formed and adds one to their total. */
  lemma BumpCounts(counts: seq<(string, nat)>, c: string, n: nat)
    requires CountsTo(counts, n) && c in StudyCounties
    ensures CountsTo(Bump(counts, c), n + 1)
  {
    var v: nat := Lookup(counts, c).GetOr(0) + 1;
    assert Bump(counts, c) == Put(counts, c, v);
    PutUnique(counts, c, v);
    PutSumBy(counts, c, v, CountOf);
    PutKeysWithin(counts, c, v, StudyCounties);
  }

  /** The kept rows keep their input order; each satisfies the keep rule. */
  lemma KeptIsSubsequence(rows: seq<seq<string>>, cols: Columns, parse: Parser)
    ensures IsSubseq(Filter(rows, Keeps(cols, parse)), rows)
    ensures forall row :: row in Filter(rows, Keeps(cols, parse)) ==> Decide(cols, parse, row).Kept?
  {
    FilterIsSubseq(rows, Keeps(cols, parse));
  }
}

=== FILE: tabular.dfy ===
/**
 * Header lookup shared by summarize_coal_data.py and filter_study_area.py.
 * Both scripts carry the same `find_column`: the headers are scanned in
 * order, and the first one whose lower-cased text contains any of the
 * patterns wins.
 */
module Tabular {
  import opened Wrappers
  import opened Text

  /** Some pattern is a substring of the lower-cased header. */
  function MatchesAny(header: string, patterns: seq<string>): (b: bool)
    ensures b <==> exists j :: 0 <= j < |patterns| && Contains(Lower(header), patterns[j])
  {
    if |patterns| == 0 then false
    else MatchesAny(header, patterns[..|patterns| - 1]) || Contains(Lower(header), patterns[|patterns| - 1])
  }

  /** A pattern list holding a word and its abbreviation matches exactly the headers containing the abbreviation. */
  lemma MatchesWordOrAbbreviation(header: string, word: string, short: string)
    requires |short| <= |word| && word[..|short|] == short
    ensures MatchesAny(header, [word, short]) <==> Contains(Lower(header), short)
  {
    if Contains(Lower(header), word) {
      ContainsPrefix(Lower(header), word, short);
    }
  }

  /** The scan of `find_column`, from header `i` on. */
  function FindColumnFrom(headers: seq<string>, patterns: seq<string>, i: nat): (r: Option<nat>)
    requires i <= |headers|
    ensures r.Some? ==> i <= r.value < |headers| && MatchesAny(headers[r.value], patterns)
    ensures r.Some? ==> forall j :: i <= j < r.value ==> !MatchesAny(headers[j], patterns)
    ensures r.None? <==> forall j :: i <= j < |headers| ==> !MatchesAny(headers[j], patterns)
    decreases |headers| - i
  {
    if i == |headers| then None
    else if MatchesAny(headers[i], patterns) then Some(i)
    else FindColumnFrom(headers, patterns, i + 1)
  }

  /**
   * `find_column`: the smallest index whose header matches some pattern, or
   * None exactly when no header matches.
   */
  function FindColumn(headers: seq<string>, patterns: seq<string>): (r: Option<nat>)
    ensures r.Some? ==> r.value < |headers| && MatchesAny(headers[r.value], patterns)
    ensures r.Some? ==> forall j :: 0 <= j < r.value ==> !MatchesAny(headers[j], patterns)
    ensures r.None? <==> forall j :: 0 <= j < |headers| ==> !MatchesAny(headers[j], patterns)
  {
    FindColumnFrom(headers, patterns, 0)
  }

  /** The result depends only on which headers match, not on the order of the patterns. */
  lemma FindColumnPatternOrder(headers: seq<string>, patterns: seq<string>, patterns': seq<string>)
    requires forall p :: p in patterns <==> p in patterns'
    ensures FindColumn(headers, patterns) == FindColumn(headers, patterns')
  {
    forall j | 0 <= j < |headers|
      ensures MatchesAny(headers[j], patterns) == MatchesAny(headers[j], patterns')
    {
      if MatchesAny(headers[j], patterns) {
        var k :| 0 <= k < |patterns| && Contains(Lower(headers[j]), patterns[k]);
        assert patterns[k] in patterns';
      }
      if MatchesAny(headers[j], patterns') {
        var k :| 0 <= k < |patterns'| && Contains(Lower(headers[j]), patterns'[k]);
        assert patterns'[k] in patterns;
      }
    }
    var a, b := FindColumn(headers, patterns), FindColumn(headers, patterns');
    if a.Some? && b.Some? {
      assert !(a.value < b.value) && !(b.value < a.value);
    }
  }

  /** A csv.reader cell: None where indexing raises IndexError. */
  function Cell(row: seq<string>, idx: nat): (r: Option<string>)
    ensures r.Some? <==> idx < |row|
    ensures r.Some? ==> r.value == row[idx]
  {
    if idx < |row| then Some(row[idx]) else None
  }
}

=== FILE: text.dfy ===
/**
 * The string operations the scripts use: `str.lower`, `str.upper`,
 * `str.strip` and the substring test `p in s`. Case mapping covers the ASCII
 * letters only; whitespace is the ASCII part of the set Python's `strip()`
 * removes.
 */
module Text {

  /** The ASCII characters `str.isspace` accepts: tab through carriage return, the separators 28-31, and space. */
  predicate IsSpace(c: char) {
    (9 as char <= c <= 13 as char) || (28 as char <= c <= 32 as char)
  }

  function LowerChar(c: char): char {
    if 'A' <= c <= 'Z' then (c as int - 'A' as int + 'a' as int) as char else c
  }

  function UpperChar(c: char): char {
    if 'a' <= c <= 'z' then (c as int - 'a' as int + 'A' as int) as char else c
  }

  function Lower(s: string): (r: string)
    ensures |r| == |s|
    ensures forall i :: 0 <= i < |s| ==> r[i] == LowerChar(s[i])
  {
    seq(|s|, i requires 0 <= i < |s| => LowerChar(s[i]))
  }

  function Upper(s: string): (r: string)
    ensures |r| == |s|
    ensures forall i :: 0 <= i < |s| ==> r[i] == UpperChar(s[i])
  {
    seq(|s|, i requires 0 <= i < |s| => UpperChar(s[i]))
  }

  /** `s` without its leading whitespace. */
  function StripLeft(s: string): (r: string)
    ensures |r| <= |s| && r == s[|s| - |r|..]
    ensures |r| > 0 ==> !IsSpace(r[0])
    ensures forall i :: 0 <= i < |s| - |r| ==> IsSpace(s[i])
  {
    if |s| > 0 && IsSpace(s[0]) then StripLeft(s[1..]) else s
  }

  /** `s` without its trailing whitespace. */
  function StripRight(s: string): (r: string)
    ensures |r| <= |s| && r == s[..|r|]
    ensures |r| > 0 ==> !IsSpace(r[|r| - 1])
    ensures forall i :: |r| <= i < |s| ==> IsSpace(s[i])
  {
    if |s| > 0 && IsSpace(s[|s| - 1]) then StripRight(s[..|s| - 1]) else s
  }

  /** Python's `s.strip()`. */
  function Strip(s: string): string {
    StripRight(StripLeft(s))
  }

  /** `s` is made of whitespace only (the empty string included). */
  predicate AllSpace(s: string) {
    forall i :: 0 <= i < |s| ==> IsSpace(s[i])
  }

  /** `s.strip() == ''` holds exactly when `s` is all whitespace. */
  lemma StripEmptyIffAllSpace(s: string)
    ensures Strip(s) == "" <==> AllSpace(s)
  {
  }

  /** `p` occurs in `s` starting at index `i`. */
  predicate OccursAt(s: string, p: string, i: nat) {
    i + |p| <= |s| && s[i..i + |p|] == p
  }

  /** Python's `p in s` for strings, by scanning start positions from `i` on. */
  function ContainsFrom(s: string, p: string, i: nat): (b: bool)
    ensures b <==> exists k :: i <= k && OccursAt(s, p, k)
    decreases |s| - i
  {
    if i + |p| > |s| then false
    else if s[i..i + |p|] == p then assert OccursAt(s, p, i); true
    else ContainsFrom(s, p, i + 1)
  }

  function Contains(s: string, p: string): (b: bool)
    ensures b <==> exists k :: OccursAt(s, p, k)
  {
    ContainsFrom(s, p, 0)
  }

  /** Whatever contains `w` contains every prefix of `w`. */
  lemma ContainsPrefix(s: string, w: string, p: string)
    requires |p| <= |w| && w[..|p|] == p
    requires Contains(s, w)
    ensures Contains(s, p)
  {
    var k: nat :| OccursAt(s, w, k);
    assert s[k..k + |p|] == s[k..k + |w|][..|p|];
    assert OccursAt(s, p, k);
  }
}

=== FILE: transect.dfy ===
/**
 * `project_to_transect` (visualize_3d.py): drill holes near a straight
 * transect, with their distance along it, ordered by that distance.
 *
 * Longitude/latitude are treated as a flat plane and one degree is taken as
 * 69 miles, as in the source. The source's `sqrt` is not modelled: the
 * caller supplies `length`. The projection needs only that it is
 * non-negative and zero exactly for coinciding endpoints (`SegmentLength`);
 * the lemmas that remove the square root also use
 * `length * length == dx * dx + dy * dy` (`IsLength`).
 */
module Transect {
  import opened Seqs
  import opened Sorting
  import opened DrillHoles

  const MilesPerDegree: real := 69.0

  /** (longitude, latitude) in decimal degrees. */
  type Point = (real, real)

  /** A hole placed on the transect: miles from the start, and miles off the line. */
  datatype Projected = Projected(distance: real, hole: DrillHole, perpDistance: real)

  /**
   * What the projection relies on about the transect length: it is
   * non-negative, and zero exactly when the two endpoints coincide.
   */
  predicate SegmentLength(start: Point, end: Point, length: real) {
    length >= 0.0 && (length == 0.0 <==> start == end)
  }

  /**
   * `length` is the Euclidean length of the segment from `start` to `end`:
   * the non-negative square root of `dx^2 + dy^2`.
   */
  predicate IsLength(start: Point, end: Point, length: real) {
    var dx, dy := end.0 - start.0, end.1 - start.1;
    && SegmentLength(start, end, length)
    && length * length == dx * dx + dy * dy
  }

  /** Signed distance along the transect, in degrees: the dot product with the unit vector. */
  function Along(h: DrillHole, start: Point, end: Point, length: real): real
    requires length > 0.0
  {
    var ux, uy := (end.0 - start.0) / length, (end.1 - start.1) / length;
    (h.lon - start.0) * ux + (h.lat - start.1) * uy
  }

  /** Distance off the transect line, in degrees: the magnitude of the cross product with the unit vector. */
  function Perp(h: DrillHole, start: Point, end: Point, length: real): real
    requires length > 0.0
  {
    var ux, uy := (end.0 - start.0) / length, (end.1 - start.1) / length;
    var c := (h.lon - start.0) * uy - (h.lat - start.1) * ux;
    if c < 0.0 then -c else c
  }

  /** The inclusion test: within the buffer, and within the segment rather than its extension. */
  predicate Keeps(h: DrillHole, start: Point, end: Point, bufferMiles: real, length: real)
    requires length > 0.0
  {
    var along := Along(h, start, end, length);
    Perp(h, start, end, length) <= bufferMiles / MilesPerDegree && 0.0 <= along <= length
  }

  function Project(h: DrillHole, start: Point, end: Point, length: real): Projected
    requires length > 0.0
  {
    Projected(Along(h, start, end, length) * MilesPerDegree, h, Perp(h, start, end, length) * MilesPerDegree)
  }

  /** The holes that pass, projected, in input order (the source's `projected` list before sorting). */
  function Candidates(holes: seq<DrillHole>, start: Point, end: Point, bufferMiles: real, length: real): (r: seq<Projected>)
    requires length > 0.0
    ensures |r| <= |holes|
    ensures forall e :: e in r ==>
      && e.hole in holes && !e.hole.IsOutlier() && Keeps(e.hole, start, end, bufferMiles, length)
      && e == Project(e.hole, start, end, length)
    ensures forall h :: h in holes && !h.IsOutlier() && Keeps(h, start, end, bufferMiles, length) ==>
      Project(h, start, end, length) in r
  {
    if |holes| == 0 then []
    else
      var h := holes[|holes| - 1];
      var init := Candidates(holes[..|holes| - 1], start, end, bufferMiles, length);
      assert forall x :: x in holes <==> x in holes[..|holes| - 1] || x == h;
      if !h.IsOutlier() && Keeps(h, start, end, bufferMiles, length)
      then init + [Project(h, start, end, length)]
      else init
  }

  /** A hole the projection keeps: not an outlier, and passing the inclusion test. */
  predicate Passes(h: DrillHole, start: Point, end: Point, bufferMiles: real, length: real) {
    length > 0.0 && !h.IsOutlier() && Keeps(h, start, end, bufferMiles, length)
  }

  /** The candidates are the passing holes, in input order, each projected once. */
  lemma {:induction false} CandidatesInOrder(holes: seq<DrillHole>, start: Point, end: Point, bufferMiles: real, length: real)
    requires length > 0.0
    ensures var kept := Filter(holes, (h: DrillHole) => Passes(h, start, end, bufferMiles, length));
      var r := Candidates(holes, start, end, bufferMiles, length);
      |r| == |kept| && forall i :: 0 <= i < |r| ==> r[i] == Project(kept[i], start, end, length)
    decreases |holes|
  {
    if |holes| > 0 {
      CandidatesInOrder(holes[..|holes| - 1], start, end, bufferMiles, length);
    }
  }

  /** A passing hole is projected as often as it occurs; any other hole never is. */
  lemma {:induction false} CandidatesMultiplicity(holes: seq<DrillHole>, start: Point, end: Point, bufferMiles: real, length: real,
                                                  h: DrillHole)
    requires length > 0.0
    ensures multiset(Candidates(holes, start, end, bufferMiles, length))[Project(h, start, end, length)] ==
      if Passes(h, start, end, bufferMiles, length) then multiset(holes)[h] else 0
    decreases |holes|
  {
    if |holes| > 0 {
      var init := holes[..|holes| - 1];
      var last := holes[|holes| - 1];
      CandidatesMultiplicity(init, start, end, bufferMiles, length, h);
      assert holes == init + [last];
      assert Project(last, start, end, length) == Project(h, start, end, length) <==> last == h;
    }
  }

  /** Ordering by distance, the key of the source's `sorted`. */
  predicate DistanceLt(a: Projected, b: Projected) {
    a.distance < b.distance
  }

  lemma DistanceLtIsStrictWeakOrder()
    ensures StrictWeakOrder(DistanceLt)
  {
  }

  /** Sorted by `DistanceLt` is the same as distances non-decreasing. */
  lemma SortedByDistance(s: seq<Projected>)
    requires Sorted(s, DistanceLt)
    ensures forall i, j :: 0 <= i < j < |s| ==> s[i].distance <= s[j].distance
  {
    forall i, j | 0 <= i < j < |s| ensures s[i].distance <= s[j].distance {
      assert !DistanceLt(s[j], s[i]);
    }
  }

  /** What a kept hole's entry promises: distance within the segment, offset within the buffer. */
  lemma KeptBounds(h: DrillHole, start: Point, end: Point, bufferMiles: real, length: real)
    requires length > 0.0
    requires Keeps(h, start, end, bufferMiles, length)
    ensures var e := Project(h, start, end, length);
      && 0.0 <= e.distance <= MilesPerDegree * length
      && 0.0 <= e.perpDistance <= bufferMiles
  {
    var along := Along(h, start, end, length);
    var perp := Perp(h, start, end, length);
    assert along * MilesPerDegree <= length * MilesPerDegree;
    assert perp * MilesPerDegree <= (bufferMiles / MilesPerDegree) * MilesPerDegree;
  }

  /**
   * `project_to_transect`: a zero-length transect gives nothing; otherwise
   * every non-outlier hole that passes the inclusion test, with its distance
   * and offset in miles, stably sorted by distance.
   */
  function ProjectToTransect(holes: seq<DrillHole>, start: Point, end: Point, bufferMiles: real, length: real)
    : (r: seq<Projected>)
    requires SegmentLength(start, end, length)
    ensures start == end ==> r == []
    ensures forall e :: e in r ==>
      && length > 0.0
      && e.hole in holes && !e.hole.IsOutlier() && Keeps(e.hole, start, end, bufferMiles, length)
      && e == Project(e.hole, start, end, length)
      && 0.0 <= e.distance <= MilesPerDegree * length
      && 0.0 <= e.perpDistance <= bufferMiles
    ensures forall h :: length > 0.0 && h in holes && !h.IsOutlier() && Keeps(h, start, end, bufferMiles, length) ==>
      Project(h, start, end, length) in r
    ensures forall i, j :: 0 <= i < j < |r| ==> r[i].distance <= r[j].distance
    ensures length > 0.0 ==> multiset(r) == multiset(Candidates(holes, start, end, bufferMiles, length))
    ensures length > 0.0 ==> forall y :: Class(r, DistanceLt, y) == Class(Candidates(holes, start, end, bufferMiles, length), DistanceLt, y)
  {
    if length == 0.0 then []
    else
      var c := Candidates(holes, start, end, bufferMiles, length);
      DistanceLtIsStrictWeakOrder();
      SortSorted(c, DistanceLt);
      SortedByDistance(Sort(c, DistanceLt));
      SortPermutes(c, DistanceLt);
      SortMembers(c, DistanceLt);
      forall y ensures Class(Sort(c, DistanceLt), DistanceLt, y) == Class(c, DistanceLt, y) {
        SortStable(c, DistanceLt, y);
      }
      forall e | e in c ensures 0.0 <= e.distance <= MilesPerDegree * length && 0.0 <= e.perpDistance <= bufferMiles {
        KeptBounds(e.hole, start, end, bufferMiles, length);
      }
      Sort(c, DistanceLt)
  }

  lemma MulPositive(x: real, y: real)
    requires x > 0.0 && y > 0.0
    ensures x * y > 0.0
  {
  }

  /** Products of non-negative reals are monotone in both factors. */
  lemma MulLe(a: real, b: real, c: real, d: real)
    requires 0.0 <= a <= b && 0.0 <= c <= d
    ensures a * c <= b * d
  {
    if b > a && c > 0.0 {
      MulPositive(b - a, c);
      assert (b - a) * c == b * c - a * c;
    }
    if d > c && b > 0.0 {
      MulPositive(b, d - c);
      assert b * (d - c) == b * d - b * c;
    }
  }

  lemma MulLt(a: real, b: real, c: real, d: real)
    requires 0.0 <= a < b && 0.0 <= c < d
    ensures a * c < b * d
  {
    MulLe(a, b, c, c);
    MulPositive(b, d - c);
    assert b * (d - c) == b * d - b * c;
  }

  /** For non-negative reals, comparing squares is comparing values. */
  lemma SquareMonotone(x: real, y: real)
    requires x >= 0.0 && y >= 0.0
    ensures x <= y <==> x * x <= y * y
  {
    if x <= y {
      MulLe(x, y, x, y);
    } else {
      MulLt(y, x, y, x);
    }
  }

  /** Multiplying by a positive number keeps the order. */
  lemma ScaleMonotone(a: real, b: real, k: real)
    requires k > 0.0
    ensures a <= b <==> a * k <= b * k
  {
    assert b * k - a * k == (b - a) * k;
    if a < b {
      MulPositive(b - a, k);
    } else if b < a {
      MulPositive(a - b, k);
      assert a * k - b * k == (a - b) * k;
    }
  }

  /** The dot product of the hole's offset from the start with the transect vector. */
  function Dot(h: DrillHole, start: Point, end: Point): real {
    (h.lon - start.0) * (end.0 - start.0) + (h.lat - start.1) * (end.1 - start.1)
  }

  /** The cross product of the hole's offset from the start with the transect vector. */
  function Cross(h: DrillHole, start: Point, end: Point): real {
    (h.lon - start.0) * (end.1 - start.1) - (h.lat - start.1) * (end.0 - start.0)
  }

  /** The squared length of the transect vector. */
  function SqLen(start: Point, end: Point): real {
    (end.0 - start.0) * (end.0 - start.0) + (end.1 - start.1) * (end.1 - start.1)
  }

  function Abs(x: real): (r: real)
    ensures r >= 0.0 && (r == x || r == -x)
  {
    if x < 0.0 then -x else x
  }

  /** Along times the length is the dot product with the transect vector. */
  lemma AlongTimesLength(h: DrillHole, start: Point, end: Point, length: real)
    requires length > 0.0
    ensures Along(h, start, end, length) * length == Dot(h, start, end)
  {
    var dx, dy := end.0 - start.0, end.1 - start.1;
    var vx, vy := h.lon - start.0, h.lat - start.1;
    var ux, uy := dx / length, dy / length;
    assert ux * length == dx;
    assert uy * length == dy;
    assert (vx * ux + vy * uy) * length == vx * (ux * length) + vy * (uy * length);
  }

  /** Perp times the length is the magnitude of the cross product with the transect vector. */
  lemma PerpTimesLength(h: DrillHole, start: Point, end: Point, length: real)
    requires length > 0.0
    ensures Perp(h, start, end, length) * length == Abs(Cross(h, start, end))
  {
    var dx, dy := end.0 - start.0, end.1 - start.1;
    var vx, vy := h.lon - start.0, h.lat - start.1;
    var ux, uy := dx / length, dy / length;
    assert ux * length == dx;
    assert uy * length == dy;
    var c' := vx * uy - vy * ux;
    assert c' * length == vx * (uy * length) - vy * (ux * length);
    if c' < 0.0 {
      assert (-c') * length == -(c' * length);
      MulPositive(-c', length);
    } else if c' > 0.0 {
      MulPositive(c', length);
    }
  }

  /** The segment half of the inclusion test without division: `0 <= v.d <= |d|^2`. */
  lemma AlongWithinSegment(h: DrillHole, start: Point, end: Point, length: real)
    requires IsLength(start, end, length) && length > 0.0
    ensures 0.0 <= Along(h, start, end, length) <= length <==> 0.0 <= Dot(h, start, end) <= SqLen(start, end)
  {
    var along, dot, sq := Along(h, start, end, length), Dot(h, start, end), SqLen(start, end);
    assert sq == length * length by { LengthSquared(start, end, length); }
    assert along * length == dot by { AlongTimesLength(h, start, end, length); }
    BetweenScaled(along, length, dot, sq);
  }

  lemma LengthSquared(start: Point, end: Point, length: real)
    requires IsLength(start, end, length)
    ensures SqLen(start, end) == length * length
  {
  }

  /** `0 <= x <= l` scaled by a positive `l`, with `xl` and `ll` standing for `x * l` and `l * l`. */
  lemma BetweenScaled(x: real, l: real, xl: real, ll: real)
    requires l > 0.0 && xl == x * l && ll == l * l
    ensures 0.0 <= x <= l <==> 0.0 <= xl <= ll
  {
    ScaleMonotone(0.0, x, l);
    ScaleMonotone(x, l, l);
  }

  /** The buffer half of the inclusion test without division: `|v x d| <= bufferDeg * |d|`. */
  lemma PerpWithinBuffer(h: DrillHole, start: Point, end: Point, bufferDeg: real, length: real)
    requires length > 0.0
    ensures Perp(h, start, end, length) <= bufferDeg <==> Abs(Cross(h, start, end)) <= bufferDeg * length
  {
    PerpTimesLength(h, start, end, length);
    ScaleMonotone(Perp(h, start, end, length), bufferDeg, length);
  }

  lemma NegTimesNeg(x: real, y: real)
    ensures (-x) * (-y) == x * y
  {
  }

  /** `|c| <= b * l` compared through squares, with `s` standing for `l^2`. */
  lemma AbsLeViaSquares(c: real, b: real, l: real, s: real)
    requires b >= 0.0 && l > 0.0 && s == l * l
    ensures Abs(c) <= b * l <==> c * c <= b * b * s
  {
    var ac := Abs(c);
    MulLe(0.0, b, 0.0, l);
    SquareMonotone(ac, b * l);
    if c < 0.0 {
      NegTimesNeg(c, c);
    }
    assert (b * l) * (b * l) == b * b * (l * l);
  }

  /**
   * The buffer half of the inclusion test without square roots: with a
   * non-negative buffer, `(v x d)^2 <= bufferDeg^2 * |d|^2`.
   */
  lemma PerpWithinBufferSquared(h: DrillHole, start: Point, end: Point, bufferDeg: real, length: real)
    requires IsLength(start, end, length) && length > 0.0
    requires bufferDeg >= 0.0
    ensures Perp(h, start, end, length) <= bufferDeg <==>
      Cross(h, start, end) * Cross(h, start, end) <= bufferDeg * bufferDeg * SqLen(start, end)
  {
    PerpWithinBuffer(h, start, end, bufferDeg, length);
    CrossWithinBufferSquared(h, start, end, bufferDeg, length);
  }

  lemma CrossWithinBufferSquared(h: DrillHole, start: Point, end: Point, bufferDeg: real, length: real)
    requires IsLength(start, end, length) && length > 0.0
    requires bufferDeg >= 0.0
    ensures Abs(Cross(h, start, end)) <= bufferDeg * length <==>
      Cross(h, start, end) * Cross(h, start, end) <= bufferDeg * bufferDeg * SqLen(start, end)
  {
    AbsLeViaSquares(Cross(h, start, end), bufferDeg, length, SqLen(start, end));
  }

  /**
   * The inclusion test without square roots or division: with a non-negative
   * buffer, a hole is kept exactly when `0 <= v.d <= |d|^2` and
   * `(v x d)^2 <= bufferDeg^2 * |d|^2`.
   */
  lemma KeepsWithoutSqrt(h: DrillHole, start: Point, end: Point, bufferMiles: real, length: real)
    requires IsLength(start, end, length) && length > 0.0
    requires bufferMiles >= 0.0
    ensures
      var bufferDeg := bufferMiles / MilesPerDegree;
      Keeps(h, start, end, bufferMiles, length) <==>
        && 0.0 <= Dot(h, start, end) <= SqLen(start, end)
        && Cross(h, start, end) * Cross(h, start, end) <= bufferDeg * bufferDeg * SqLen(start, end)
  {
    AlongWithinSegment(h, start, end, length);
    PerpWithinBufferSquared(h, start, end, bufferMiles / MilesPerDegree, length);
  }

  /** `x * l == l * l` with a positive `l` forces `x == l`; `xl` stands for the product. */
  lemma CancelLength(x: real, l: real, xl: real)
    requires l > 0.0 && xl == x * l && xl == l * l
    ensures x == l
  {
    ScaleMonotone(x, l, l);
    ScaleMonotone(l, x, l);
  }

  /** A non-negative factor whose product with a positive number is 0 is itself 0. */
  lemma ZeroFactor(p: real, l: real)
    requires p >= 0.0 && l > 0.0 && p * l == 0.0
    ensures p == 0.0
  {
    if p != 0.0 {
      MulPositive(p, l);
    }
  }

  /** A hole exactly at the start is at distance 0, on the line. */
  lemma StartProjects(h: DrillHole, start: Point, end: Point, length: real)
    requires length > 0.0 && (h.lon, h.lat) == start
    ensures Along(h, start, end, length) == 0.0 && Perp(h, start, end, length) == 0.0
  {
  }

  /** A hole exactly at the end is at the full length, on the line. */
  lemma EndProjects(h: DrillHole, start: Point, end: Point, length: real)
    requires IsLength(start, end, length) && length > 0.0 && (h.lon, h.lat) == end
    ensures Along(h, start, end, length) == length && Perp(h, start, end, length) == 0.0
  {
    AlongTimesLength(h, start, end, length);
    PerpTimesLength(h, start, end, length);
    assert Dot(h, start, end) == SqLen(start, end);
    LengthSquared(start, end, length);
    CancelLength(Along(h, start, end, length), length, Dot(h, start, end));
    assert Cross(h, start, end) == 0.0;
    ZeroFactor(Perp(h, start, end, length), length);
  }

  /** A hole exactly at the start is at distance 0; one exactly at the end is at the full length. */
  lemma EndpointsProject(h: DrillHole, start: Point, end: Point, length: real)
    requires IsLength(start, end, length) && length > 0.0
    ensures (h.lon, h.lat) == start ==>
      Project(h, start, end, length).distance == 0.0 && Project(h, start, end, length).perpDistance == 0.0
    ensures (h.lon, h.lat) == end ==>
      Project(h, start, end, length).distance == MilesPerDegree * length && Project(h, start, end, length).perpDistance == 0.0
  {
    if (h.lon, h.lat) == start {
      StartProjects(h, start, end, length);
    }
    if (h.lon, h.lat) == end {
      EndProjects(h, start, end, length);
    }
  }
}

=== FILE: wrappers.dfy ===
/** Present-or-absent values: the model's stand-in for Python's `Optional`. */
module Wrappers {

  datatype Option<+T> = None | Some(value: T) {

    /** Returns the value held in Some, or `default` when None (Python's `x or default`). */
    function GetOr(default: T): T {
      match this
      case Some(v) => v
      case None => default
    }
  }
}
